=== FILE: README.md ===
# scoutscrape in Dafny

A model of the scraper that copies the JPL Scout feed of near-Earth-object
candidates into a TimescaleDB table `scout`. The model has two layers.

The field layer (summary.go) decodes one JSON field at a time:
- `unquote` strips one matching pair of quotes from a token.
- `qint` and `qfloat` are nullable numbers. The JSON literal `null` means absent.
- `mintime` is a UTC timestamp with minute precision, in the layout `2006-01-02 15:04`.
- `V()` turns each value into the SQL parameter it binds. Absent becomes NULL.

The pipeline layer (main.go) covers the rest:
- the freshness gate `cacheModifiedSince`: after a fetch that wrote its cache file, no further fetch happens for fifteen minutes (a failed GET or a non-200 status writes no file, so the next run fetches again);
- the filter of `replayFromCache`;
- the connection string of `buildConnectOptions`;
- `writeSummaries`, an insert-or-ignore on the primary key `(object_name, last_run)` that counts candidates and inserted rows.

Both layers are pure functions over immutable data:
- The table is a `map<(string, Instant), Row>`.
- `writeSummaries` comes in two versions, chosen by `Ingest.Writer`. `InTransaction` is the intended one: the INSERTs run on a copy of the table, which commit installs and rollback discards. `AsWritten` is main.go as it stands: each INSERT commits on its own, so rows inserted before a failed INSERT or a failed commit stay (see Findings).
- `Pipeline.MainRun`, `Pipeline.Replay` and `Pipeline.Live` take the writer as a parameter. Each run property is stated for both writers, except where their contracts say the two differ.
- The clock, the cache directory listing, the HTTP response and the database's successes and failures are inputs of `Pipeline.MainRun`.

Modules, in dependency order:

| file | module | models |
|---|---|---|
| base.dfy | Base | bytes, `Option`, `Result`, instants (nanoseconds since Go's zero time 0001-01-01 00:00 UTC) |
| decimal.dfy | Decimal | `strconv.Atoi` / `strconv.Itoa` on a 64-bit `int` |
| timestamp.dfy | Timestamp | the layout `2006-01-02 15:04` and the proleptic Gregorian day count of `time.Date` |
| fields.dfy | Fields | `unquote`, `qint`, `qfloat`, `mintime`, `V()` |
| records.dfy | Records | `Summary`, `Detail`, the columns and primary key of `schema`, the INSERT parameters |
| ingest.dfy | Ingest | `writeSummaries` |
| cache.dfy | Cache | `cacheModifiedSince`, the loop of `replayFromCache` |
| settings.dfy | Settings | the flags and `buildConnectOptions` |
| pipeline.dfy | Pipeline | `Main`, `replayFromCache`, the cache file written by a fetch |

## Model

| member | source | states |
|---|---|---|
| Decimal.Atoi | summary.go:53-56 | A parse succeeds only on an optional sign followed by at least one digit and nothing else. Its value fits a 64-bit `int` and is negative only after `-`. A refusal reports the refused text. |
| Decimal.AtoiLeadingZeros | summary.go:53 | Non-canonical text is read too: leading zeros and a `+` keep the value, and `-` negates it, down to the smallest `int`. For example, `+007` gives 7 and `-09223372036854775808` gives -2^63. |
| Decimal.AtoiItoa | summary.go:53 | Every 64-bit `int` written in decimal parses back to itself. |
| Decimal.AtoiRejectsOverflow | summary.go:53-56 | The shortest decimal text of a value outside the 64-bit range is refused. |
| Decimal.AtoiRejectsPaddedOverflow | summary.go:53-56 | Text of a value outside the 64-bit range is refused however it is written: bare, after `+` or `-`, and with any number of leading zeros, as in `+9223372036854775808` or `0009223372036854775808`. |
| Timestamp.ParseLayout | summary.go:103 | Only real calendar minutes with four-digit years are accepted. Month 13, 30 February, hour 24 and minute 60 are refused. |
| Timestamp.ParseFormat | summary.go:103 | Formatting valid fields in the layout and parsing the text gives the fields back. |
| Timestamp.FormatParse | summary.go:103 | Any accepted text is the canonical text of the fields it parsed to. |
| Timestamp.ToInstant | summary.go:103-107 | A parsed time is a whole UTC minute: its seconds and nanoseconds are zero. |
| Timestamp.UnixEpochInstant | summary.go:103-107 | 1970-01-01 00:00 lies 62135596800 seconds after Go's zero time, the offset Go's `time` package uses for Unix time. |
| Timestamp.ToInstantInjective | summary.go:103-107 | Two valid calendar minutes give the same instant exactly when their fields are equal. |
| Timestamp.ZeroInstantFields | summary.go:96-107 | The only minute that lands on Go's zero time is 0001-01-01 00:00. |
| Fields.Unquote | summary.go:89-94 | The first and last byte are stripped exactly when the token is longer than one byte, starts and ends with the same byte, and that byte is `'` or `"`. Otherwise the token is unchanged. The result is `len` or `len-2` bytes long. |
| Fields.UnquoteQuote | summary.go:89-94 | Unquoting inverts wrapping any token in a pair of matching quotes. |
| Fields.UnquoteMismatched | summary.go:90-93 | `'5"`, a lone `"` and the empty token pass through unchanged. |
| Fields.UnmarshalQInt | summary.go:49-59 | `null` returns no error and leaves the target alone. Otherwise the call succeeds exactly when `Atoi` accepts the unquoted token, and the target then holds its value. On an error the target is unchanged. |
| Fields.QIntV | summary.go:61-66 | The bound value is NULL exactly when the receiver is nil or absent. Otherwise it is the stored integer, never a zero stand-in. |
| Fields.QIntDecodesDecimal | summary.go:53-58 | The decimal text of any 64-bit `int`, bare or in either kind of quote, decodes to that integer. |
| Fields.QIntQuotedLikeBare | summary.go:53 | For a token that is not `null` and not itself quoted, the token and the same token in matching quotes decode to the same value and error. |
| Fields.QuotedNullIsAnError | summary.go:50-56 | The string `"null"` is not the null literal: it is an integer error. |
| Fields.UnmarshalQFloat | summary.go:70-80 | The `null`, error and success cases of `qint`, with the float parser as a parameter. |
| Fields.QFloatV | summary.go:82-87 | The bound value is NULL exactly when the receiver is nil or absent. Otherwise it is the stored double. |
| Fields.QFloatQuotedLikeBare | summary.go:74 | For a token that is not `null` and not itself quoted, the token and the same token in matching quotes decode alike as doubles, whatever the float parser. |
| Fields.UnmarshalMinTime | summary.go:98-109 | `null` leaves the target alone. Otherwise the call succeeds exactly when the unquoted token parses in the layout. The result is then the UTC instant of the parsed fields, a whole minute. On an error the target is unchanged. |
| Fields.MinTimeDecodesLayout | summary.go:103-107 | Any valid minute written in the layout, bare or quoted, decodes to its instant. |
| Fields.MinTimeZeroCollision | summary.go:96-107 | A decoded time equals the zero value used for "absent" exactly when its text names 0001-01-01 00:00. |
| Fields.DecodeQIntMember | summary.go:47-59 | A fresh field ends up holding a value exactly when the member is present, is not `null` and decodes without error. The value is then what `Atoi` reads from the unquoted token. An error is reported exactly for a present, non-null member that `Atoi` refuses. |
| Fields.OmittedIsNull | summary.go:47-52 | An omitted member and an explicit `null` both leave the field absent, and both bind as NULL. |
| Records.BindConforms | main.go:259-284 | The 24 parameters of a record are each of their column's kind and respect its NOT NULL constraint. All of them are accepted exactly when the record's eight SMALLINT fields fit (-32768..32767). The primary-key parameters carry the record's key. |
| Records.PrimaryKeyNotNull | summary.go:113-137 | The primary key is `(object_name, last_run)`, and both columns are NOT NULL. |
| Records.BindNullIffAbsent | main.go:259-284 | A parameter is NULL exactly when its field is an absent optional number. Text and timestamps are never NULL. |
| Records.AbsentEphemerisIsZeroTime | main.go:277 | An absent `tEphem` binds as Go's zero time in `tephem`, not as NULL. |
| Ingest.Candidates | main.go:256-258 | The candidates are exactly the records of all the snapshots. |
| Ingest.CandidatesAppend | main.go:256-258 | The candidates of two batches of snapshots are the two lists of candidates, one after the other. |
| Ingest.ExecAll | main.go:256-291 | The loop stops with an error exactly at the failing execution, if that comes before the end. It never counts more rows than records. |
| Ingest.ExecAllTable | main.go:256-291 | The loop keeps every existing row unchanged. It adds exactly the keys of the records it executed, and the count equals the rows added. |
| Ingest.ExecAllFirstRow | main.go:236-244 | A new key's row holds the parameters of the first record with that key. Later duplicates are ignored. |
| Ingest.InsertedCountsNewKeys | main.go:289-290 | The inserted count is the number of distinct keys the table did not yet hold. |
| Ingest.ExecAllKnownKeys | main.go:244 | A batch whose keys are all present inserts nothing and changes nothing. |
| Ingest.SetupError | main.go:225-255 | Connect, schema, prepare and begin are tried in that order. There is no error exactly when all four succeed. Otherwise the error is that of the first step that fails. |
| Ingest.WriteSummaries | main.go:223-301 | Every error leaves the table as it was. A schema failure is reported before any insert. Success happens exactly when every step succeeds. On success: the candidates counted are all the records, no more rows are inserted than there are candidates, the new keys are the candidates' keys, and old rows are kept. |
| Ingest.WriteSummariesAsWritten | main.go:236-296 | As the source stands, an execution failure leaves the rows of the records executed before it in the table. |
| Ingest.AsWrittenKeepsPartialRows | main.go:236-288 | As written, an error after a new record leaves that record in the table. The corrected function leaves the table unchanged. |
| Ingest.Write | main.go:223-301 | Both writers return the same outcome, and on success the same table. After an error the intended writer leaves the table unchanged, and so do both after any error other than a failed INSERT or commit (a failed connect, CREATE TABLE, Prepare or Begin). Both keep every old row and add only keys of the candidates. |
| Ingest.WriteSummariesRows | main.go:236-291 | After success, each new key's row is the binding of its first candidate. |
| Ingest.WriteKnownKeys | main.go:244-298 | When every candidate's key is already stored and every step succeeds, the table is unchanged and all candidates are duplicates. |
| Ingest.WriteIdempotent | main.go:244 | Writing the same snapshots a second time inserts 0 rows, leaves the table unchanged, and reports every candidate as a duplicate. |
| Ingest.CountsOfIngestion | main.go:289-298 | Inserted equals the number of new distinct keys. With distinct candidate keys, the duplicates are exactly the candidates already stored. |
| Cache.ScanFreshExists | main.go:133-142 | The loop answers true exactly when some regular entry is modified strictly after `t`. |
| Cache.ModifiedSince | main.go:123-143 | A missing directory gives `false` with no error. An unreadable one gives an error. Otherwise the answer is true exactly when some regular file was modified strictly after `t`. |
| Cache.OnlyRegularFilesCount | main.go:133-142 | Non-regular entries never make the cache fresh, however new they are. |
| Cache.ReplayLoop | main.go:169-192 | The loop succeeds exactly when no regular file fails to open or decode. On success it appends the kept snapshots in listing order. An error names the first such file and says whether it failed to open. |
| Cache.ReplayFiles | main.go:167-192 | The replay list is exactly the kept snapshots in listing order, or the error of a broken regular file. |
| Cache.KeptSummariesMembers | main.go:169-192 | A snapshot is replayed exactly when it comes from a regular file that opens, decodes and carries version "1.2". |
| Cache.KeptSummariesAppend | main.go:169-192 | The replay of a listing split in two is the two replays, one after the other. |
| Cache.SwapKeepsContents | main.go:169-192 | Swapping two neighbouring files changes the order of the replay, not its contents. |
| Settings.Setting | main.go:201-215 | A setting contributes no item exactly when it is empty. Otherwise it contributes exactly one item, `keyword=value`. |
| Settings.ConnectOptions | main.go:199-221 | The string is empty exactly when all six settings are empty. |
| Settings.SplitJoin | main.go:220 | Joining space-free items with single spaces and splitting at spaces gives the items back. |
| Settings.ConnectOptionsSplit | main.go:199-221 | Split at spaces, the string gives the non-empty `host=`, `port=`, `user=`, `password=` and `dbname=` items in that order, then the words of the extra options. |
| Settings.DefaultConnectOptions | main.go:49-56 | With the flag defaults, the string is `host=127.0.0.1 port=30000 user=tsdbadmin password=… dbname=tsdb sslmode=require`. |
| Pipeline.AddCacheFile | main.go:101-107 | A fetched body becomes a new regular file at the end of the listing, modified now, and the earlier entries are unchanged. A missing directory is created holding just that file. |
| Pipeline.Replay | main.go:157-197 | A missing directory is success with nothing written. An unreadable one is an error. Any broken regular file aborts with nothing written. On success the table gains exactly the keys of the kept snapshots. Under either writer, old rows are kept and only keys of the kept snapshots are added. A failed connect, CREATE TABLE, Prepare or Begin leaves the table unchanged under either writer; a failed INSERT or commit does so only under the intended writer. The API is never called. |
| Pipeline.Live | main.go:91-120 | A transport error, a non-200 status, a failed cache file, an undecodable body and an unknown version each end the run with an error and the table unchanged. A failed connect, CREATE TABLE, Prepare or Begin does the same under either writer; a failed INSERT or commit does so only under the intended writer. Under either writer, old rows are kept and any new key is a key of the fetched records. Success implies a 200 response with version "1.2" whose body is in the cache. |
| Pipeline.MainRun | main.go:76-121 | The API is called exactly when not replaying and the cache directory is missing, or is readable and holds no regular file newer than fifteen minutes. Existing rows are never altered. An error other than a failed INSERT or commit leaves the table unchanged. Under the intended writer every error does; as written, a failed INSERT or commit may leave rows behind. |
| Pipeline.WritersAgree | main.go:76-121 | The two writers give every run the same outcome, fetch decision and cache, and on success the same table. |
| Pipeline.AsWrittenRunKeepsPartialRows | main.go:91-120 | As written, a live run that the freshness gate lets through, with no cache directory or a stale one, and whose INSERT fails after an earlier new record, returns an error with that record left in the table. Under the intended writer the table is unchanged. |
| Pipeline.FreshCacheSkipsFetch | main.go:82-89 | A regular cache file newer than fifteen minutes means success, no fetch and no write. |
| Pipeline.ReplayIgnoresClockAndNetwork | main.go:77-79 | Replay mode bypasses the freshness gate: its result does not depend on the clock or the API. |
| Pipeline.LiveRejectionsWriteNothing | main.go:97-118 | A non-200 status or a version other than "1.2" is an error before anything is written. |
| Pipeline.SecondRunWithinWindowSkips | main.go:82-107 | After a successful fetch, a live run less than fifteen minutes later does not fetch again. |
| Pipeline.FetchedRun | main.go:91-120 | A successful run that called the API received a decodable body, cached it and ingested exactly that snapshot. |
| Pipeline.ReplayAfterFetchAddsNothing | main.go:157-197 | When the cache directory did not exist before the fetch, so that it then holds only the fetched snapshot, replaying it into the same table reports all its records as duplicates and changes nothing. With other snapshots in the cache the counts differ. |
| Pipeline.NullRatingStoredAsNull | main.go:259-263 | A fetched record with `"rating": null` is stored with NULL in `rating`. |

## Left out

- HTTP: `http.Get` is an input, either a transport error or a status and a body. The body's stream is not modelled.
- Pipeline.AddCacheFile: the `<unix seconds>.json` file name, `O_TRUNC` overwriting a file from the same second, and the file permissions are not modelled. The new file is placed last in the listing. `ioutil.ReadDir` sorts by name, so this holds only when no other entry's name sorts after the new `<unix seconds>.json`, as for a cache that holds only the scraper's own files. `MkdirAll` is assumed to succeed along with the file creation, and a failed creation does not leave a newly made directory behind.
- Pipeline.Live: `io.TeeReader` may copy only the prefix of the body that the JSON decoder consumed. The model caches the decoded payload itself.
- `os.Stat`, `ioutil.ReadDir` and `os.Open` are inputs: the directory is missing, unreadable, or a listing whose entries say whether they are regular, when they were modified, and whether they open.
- JSON structural decoding of `Summary` is an input: a cached or fetched payload is either malformed or a decoded `Summary`. Only the field decoders of summary.go are modelled.
- Fields.UnmarshalQFloat: `strconv.ParseFloat` is an uninterpreted parameter, because floating point is not modelled. Doubles are kept as their bit patterns.
- Timestamp.ParseLayout: only the zero-padded layout is accepted. Go's `time.Parse` also accepts some other forms, such as a one-digit hour. The model makes no claim that those are refused by Go.
- Decimal.Atoi: Go's distinction between syntax and range errors is not kept. Both are one error that carries the text.
- Ingest.WriteSummaries: the database is an input `DbEnv` that says which steps fail and at which record an INSERT fails. A SMALLINT value out of range, or any other server-side refusal, is one such failure. The connection string is not interpreted, and `create_hypertable` is not modelled.
- Records.BindConforms: the range of PostgreSQL's REAL is not checked, because doubles are kept as bit patterns. A double outside it is refused by the server, which the model treats as a failed INSERT.
- Settings.ConnectOptionsSplit: it is stated only for settings without spaces. A space inside a value does not survive a split at spaces.
- kingpin flag and environment parsing, `defaultCacheDir` and logging are not modelled. The configuration is the immutable `Settings.Config`, and `Settings.Defaults` records the flag defaults.
- The modification time of a newly written cache file is the `now` of the run.

## Findings

| source | as written | input that shows it | evidently intended | confidence | as-written member | corrected member |
|---|---|---|---|---|---|---|
| main.go:236-288 | The INSERT is prepared with `db.Prepare` on the connection pool, not with `tx.Prepare`. Each `stmt.Exec` therefore runs outside the transaction and commits on its own. The `tx.Rollback()` after a failed execution, or a failed `tx.Commit()`, takes nothing back. | An empty table and one snapshot with two records with distinct keys, where the second execution fails: the call returns an error, but the first record stays in the table. | An execution error rolls the whole batch back, leaving the table as it was. | high; not executed | Ingest.WriteSummariesAsWritten, Ingest.AsWrittenKeepsPartialRows, Pipeline.AsWrittenRunKeepsPartialRows | Ingest.WriteSummaries |

=== FILE: base.dfy ===
/**
 Shared vocabulary of the scoutscrape model: bytes, optional values, results
 and instants of time.
 */
module Base {

  /** One octet of a raw JSON token. */
  newtype byte = b: int | 0 <= b < 256

  /** A raw byte string, as Go's `[]byte` or the bytes of a Go `string`. */
  type Bytes = seq<byte>

  datatype Option<+T> = None | Some(value: T)

  datatype Result<+T, +E> = Ok(value: T) | Err(error: E)

  /** ASCII codes of the characters the decoders look at. */
  const DoubleQuote: byte := 34   // "
  const SingleQuote: byte := 39   // '
  const Plus: byte := 43          // +
  const Minus: byte := 45         // -
  const Zero: byte := 48          // 0
  const Nine: byte := 57          // 9
  const Colon: byte := 58         // :
  const Space: byte := 32         // (blank)

  /** The JSON literal `null` (section 3 of RFC 8259). */
  const Null: Bytes := [110, 117, 108, 108]

  /**
   An absolute instant, in nanoseconds since Go's zero `time.Time`,
   0001-01-01 00:00:00 UTC. The zero value of `time.Time` is therefore 0.
   */
  type Instant = int

  const ZeroInstant: Instant := 0
  const NanosPerSecond: int := 1_000_000_000
  const NanosPerMinute: int := 60 * NanosPerSecond
}

=== FILE: cache.dfy ===
/**
 The snapshot cache directory (main.go): the freshness query
 `cacheModifiedSince` and the per-file filter of `replayFromCache`. The
 directory listing is an input, in the order `ioutil.ReadDir` returns it.
 */
module Cache {
  import opened Base
  import opened Records

  /** What decoding a file's bytes as a `Summary` gives. */
  datatype Payload = Malformed | Wellformed(summary: Summary)

  /** One directory entry: its mode, modification time, and whether it opens and what it holds. */
  datatype Entry = Entry(regular: bool, modTime: Instant, opens: bool, payload: Payload)

  /** The cache directory as `os.Stat` and `ioutil.ReadDir` see it. */
  datatype Dir = Missing | Unreadable | Listing(entries: seq<Entry>)

  /** `ioutil.ReadDir` failed on a directory that exists. */
  datatype CacheError = ReadDirFailed

  /** The file at `index` of the listing could not be opened, or not decoded. */
  datatype FileError = OpenFailed(index: nat) | DecodeFailed(index: nat)

  /** The only schema version the scraper accepts. */
  const ExpectedVersion: string := "1.2"

  // ---------------------------------------------------------------- freshness

  predicate FreshEntry(e: Entry, t: Instant) {
    e.regular && e.modTime > t
  }

  /** The loop of `cacheModifiedSince`: skip non-regular entries, stop at the first later one. */
  function ScanFresh(es: seq<Entry>, t: Instant): bool {
    if |es| == 0 then false
    else if !es[0].regular then ScanFresh(es[1..], t)
    else if es[0].modTime > t then true
    else ScanFresh(es[1..], t)
  }

  lemma {:induction false} ScanFreshExists(es: seq<Entry>, t: Instant)
    ensures ScanFresh(es, t) <==> exists i | 0 <= i < |es| :: FreshEntry(es[i], t)
  {
    if |es| > 0 {
      ScanFreshExists(es[1..], t);
      if exists i | 0 <= i < |es| :: FreshEntry(es[i], t) {
        var i :| 0 <= i < |es| && FreshEntry(es[i], t);
        if i > 0 {
          assert FreshEntry(es[1..][i - 1], t);
        }
      }
      if exists i | 0 <= i < |es[1..]| :: FreshEntry(es[1..][i], t) {
        var i :| 0 <= i < |es[1..]| && FreshEntry(es[1..][i], t);
        assert FreshEntry(es[i + 1], t);
      }
    }
  }

  /**
   `cacheModifiedSince(t)`: false for a missing directory, an error for an
   unreadable one, otherwise whether some regular file was modified strictly
   after `t`.
   */
  function ModifiedSince(dir: Dir, t: Instant): (r: Result<bool, CacheError>)
    ensures dir.Missing? ==> r == Ok(false)
    ensures dir.Unreadable? ==> r == Err(ReadDirFailed)
    ensures dir.Listing? ==> r.Ok? && (r.value <==> exists i | 0 <= i < |dir.entries| :: FreshEntry(dir.entries[i], t))
  {
    match dir
    case Missing => Ok(false)
    case Unreadable => Err(ReadDirFailed)
    case Listing(es) => ScanFreshExists(es, t); Ok(ScanFresh(es, t))
  }

  /** A directory whose regular files are all old, or that has none, is not fresh. */
  lemma OnlyRegularFilesCount(es: seq<Entry>, t: Instant)
    requires forall i | 0 <= i < |es| :: es[i].regular ==> es[i].modTime <= t
    ensures ModifiedSince(Listing(es), t) == Ok(false)
  {
  }

  // ---------------------------------------------------------------- replay

  /** A regular file whose snapshot is taken into the replay. */
  predicate Kept(e: Entry) {
    e.regular && e.opens && e.payload.Wellformed? && e.payload.summary.signature.version == ExpectedVersion
  }

  /** A regular file that cannot be opened or decoded: it aborts the replay. */
  predicate Broken(e: Entry) {
    e.regular && (!e.opens || e.payload.Malformed?)
  }

  /** The snapshots a replay takes, in listing order. */
  function KeptSummaries(es: seq<Entry>): seq<Summary> {
    if |es| == 0 then []
    else (if Kept(es[0]) then [es[0].payload.summary] else []) + KeptSummaries(es[1..])
  }

  /**
   The loop of `replayFromCache` from position `i`, with the snapshots
   appended so far: skip non-regular files, fail on the first file that does
   not open or decode, skip a wrong version, keep the rest.
   */
  function ReplayLoop(es: seq<Entry>, i: nat, acc: seq<Summary>): (r: Result<seq<Summary>, FileError>)
    requires i <= |es|
    ensures r.Ok? <==> forall j | i <= j < |es| :: !Broken(es[j])
    ensures r.Ok? ==> r.value == acc + KeptSummaries(es[i..])
    ensures r.Err? ==> var j := r.error.index;
      && i <= j < |es| && Broken(es[j])
      && (forall k | i <= k < j :: !Broken(es[k]))
      && (r.error == OpenFailed(j) <==> !es[j].opens)
    decreases |es| - i
  {
    if i == |es| then Ok(acc)
    else
      assert es[i..] == [es[i]] + es[i + 1..];
      var e := es[i];
      if !e.regular then ReplayLoop(es, i + 1, acc)
      else if !e.opens then Err(OpenFailed(i))
      else match e.payload
        case Malformed => Err(DecodeFailed(i))
        case Wellformed(s) =>
          if s.signature.version != ExpectedVersion then ReplayLoop(es, i + 1, acc)
          else ReplayLoop(es, i + 1, acc + [s])
  }

  /** The snapshots of a whole listing, or the error that stops the replay. */
  function ReplayFiles(es: seq<Entry>): (r: Result<seq<Summary>, FileError>)
    ensures r.Ok? <==> forall j | 0 <= j < |es| :: !Broken(es[j])
    ensures r.Ok? ==> r.value == KeptSummaries(es)
    ensures r.Err? ==> 0 <= r.error.index < |es| && Broken(es[r.error.index])
  {
    assert es[0..] == es;
    ReplayLoop(es, 0, [])
  }

  /**
   A snapshot is replayed exactly when it comes from a regular file that opens,
   decodes and declares the expected version.
   */
  lemma {:induction false} KeptSummariesMembers(es: seq<Entry>, s: Summary)
    ensures s in KeptSummaries(es) <==> exists i | 0 <= i < |es| :: Kept(es[i]) && es[i].payload.summary == s
  {
    if |es| > 0 {
      KeptSummariesMembers(es[1..], s);
      if exists i | 0 <= i < |es| :: Kept(es[i]) && es[i].payload.summary == s {
        var i :| 0 <= i < |es| && Kept(es[i]) && es[i].payload.summary == s;
        if i > 0 {
          assert Kept(es[1..][i - 1]);
        }
      }
      if exists i | 0 <= i < |es[1..]| :: Kept(es[1..][i]) && es[1..][i].payload.summary == s {
        var i :| 0 <= i < |es[1..]| && Kept(es[1..][i]) && es[1..][i].payload.summary == s;
        assert Kept(es[i + 1]);
      }
    }
  }

  /** The replay of two listings one after the other is the two replays concatenated. */
  lemma {:induction false} KeptSummariesAppend(a: seq<Entry>, b: seq<Entry>)
    ensures KeptSummaries(a + b) == KeptSummaries(a) + KeptSummaries(b)
  {
    if |a| == 0 {
      assert a + b == b;
    } else {
      var head := if Kept(a[0]) then [a[0].payload.summary] else [];
      assert (a + b)[0] == a[0];
      assert (a + b)[1..] == a[1..] + b;
      assert KeptSummaries(a + b) == head + KeptSummaries(a[1..] + b);
      KeptSummariesAppend(a[1..], b);
      assert KeptSummaries(a) == head + KeptSummaries(a[1..]);
    }
  }

  /** Swapping two neighbouring files changes the order of the replay but not what it holds. */
  lemma SwapKeepsContents(a: seq<Entry>, x: Entry, y: Entry, b: seq<Entry>)
    ensures multiset(KeptSummaries(a + [x, y] + b)) == multiset(KeptSummaries(a + [y, x] + b))
  {
    var kx, ky := KeptSummaries([x]), KeptSummaries([y]);
    assert [x] + [y] == [x, y];
    assert [y] + [x] == [y, x];
    KeptSummariesAppend([x], [y]);
    KeptSummariesAppend([y], [x]);
    KeptSummariesAppend(a, [x, y]);
    KeptSummariesAppend(a, [y, x]);
    KeptSummariesAppend(a + [x, y], b);
    KeptSummariesAppend(a + [y, x], b);
    var ka, kb := KeptSummaries(a), KeptSummaries(b);
    assert KeptSummaries(a + [x, y] + b) == ka + (kx + ky) + kb;
    assert KeptSummaries(a + [y, x] + b) == ka + (ky + kx) + kb;
    assert multiset(kx + ky) == multiset(ky + kx);
  }
}

=== FILE: decimal.dfy ===
/**
 Decimal integers as `strconv.Atoi` reads them and `strconv.Itoa` writes them,
 on a 64-bit Go `int`.
 */
module Decimal {
  import opened Base

  const MinInt: int := -0x8000_0000_0000_0000
  const MaxInt: int := 0x7FFF_FFFF_FFFF_FFFF

  predicate InIntRange(n: int) {
    MinInt <= n <= MaxInt
  }

  predicate IsDigit(b: byte) {
    Zero <= b <= Nine
  }

  predicate AllDigits(s: Bytes) {
    forall i | 0 <= i < |s| :: IsDigit(s[i])
  }

  function DigitValue(b: byte): nat
    requires IsDigit(b)
  {
    (b - Zero) as nat
  }

  /** The value of a string of decimal digits, most significant first. */
  function DigitsValue(s: Bytes): nat
    requires AllDigits(s)
  {
    if |s| == 0 then 0 else DigitsValue(s[..|s| - 1]) * 10 + DigitValue(s[|s| - 1])
  }

  /** The shortest decimal digit string of `n`. */
  function NatDigits(n: nat): (r: Bytes)
    ensures 0 < |r| && AllDigits(r)
  {
    if n < 10 then [(Zero as int + n) as byte]
    else NatDigits(n / 10) + [(Zero as int + n % 10) as byte]
  }

  /** `strconv.Itoa`: an optional minus sign followed by the shortest digits. */
  function Itoa(n: int): Bytes {
    if n < 0 then [Minus] + NatDigits(-n) else NatDigits(n)
  }

  /** The text after an optional leading `+` or `-`. */
  function Unsigned(s: Bytes): Bytes
    requires 0 < |s|
  {
    if s[0] == Plus || s[0] == Minus then s[1..] else s
  }

  /** `k` zero digits. */
  function Zeros(k: nat): (z: Bytes)
    ensures |z| == k && AllDigits(z)
  {
    seq(k, _ => Zero)
  }

  /** The error of `strconv.Atoi`; syntax and range errors are not told apart. */
  datatype NumError = InvalidInt(text: Bytes)

  /**
   `strconv.Atoi`: an optional `+` or `-`, then at least one decimal digit,
   whose value must fit a 64-bit `int`.
   */
  function Atoi(s: Bytes): (r: Result<int, NumError>)
    ensures r.Ok? ==> InIntRange(r.value)
    ensures r.Err? ==> r.error == InvalidInt(s)
    ensures r.Ok? ==> 0 < |s| && (IsDigit(s[0]) || s[0] == Plus || s[0] == Minus)
    ensures r.Ok? ==> 0 < |s| && 0 < |Unsigned(s)| && AllDigits(Unsigned(s))
    ensures r.Ok? && r.value < 0 ==> s[0] == Minus
  {
    if |s| == 0 then Err(InvalidInt(s))
    else
      var digits := Unsigned(s);
      if |digits| == 0 || !AllDigits(digits) then Err(InvalidInt(s))
      else
        var v: int := DigitsValue(digits);
        var n := if s[0] == Minus then -v else v;
        if InIntRange(n) then Ok(n) else Err(InvalidInt(s))
  }

  lemma {:induction false} NatDigitsValue(n: nat)
    ensures DigitsValue(NatDigits(n)) == n
  {
    if n >= 10 {
      var s := NatDigits(n);
      assert s[..|s| - 1] == NatDigits(n / 10);
      NatDigitsValue(n / 10);
    }
  }

  /** Every Go `int` survives a trip through its decimal text. */
  lemma AtoiItoa(n: int)
    requires InIntRange(n)
    ensures Atoi(Itoa(n)) == Ok(n)
  {
    if n < 0 {
      assert Itoa(n)[1..] == NatDigits(-n);
      NatDigitsValue(-n);
    } else {
      NatDigitsValue(n);
    }
  }

  /** The shortest text of a value outside the 64-bit range is refused even though it is well formed. */
  lemma AtoiRejectsOverflow(n: int)
    requires !InIntRange(n)
    ensures Atoi(Itoa(n)).Err?
  {
    if n < 0 {
      assert Itoa(n)[1..] == NatDigits(-n);
      NatDigitsValue(-n);
    } else {
      NatDigitsValue(n);
    }
  }

  lemma {:induction false} ZerosValue(k: nat)
    ensures DigitsValue(Zeros(k)) == 0
  {
    if k > 0 {
      assert Zeros(k)[..k - 1] == Zeros(k - 1);
      ZerosValue(k - 1);
    }
  }

  /** Leading zeros do not change the value of a digit string. */
  lemma {:induction false} LeadingZerosValue(k: nat, t: Bytes)
    requires AllDigits(t)
    ensures AllDigits(Zeros(k) + t) && DigitsValue(Zeros(k) + t) == DigitsValue(t)
    decreases |t|
  {
    var z := Zeros(k);
    assert AllDigits(z + t) by {
      forall i | 0 <= i < |z + t| ensures IsDigit((z + t)[i]) {
        if i >= |z| {
          assert (z + t)[i] == t[i - |z|];
        }
      }
    }
    if |t| == 0 {
      assert z + t == z;
      ZerosValue(k);
    } else {
      var u := t[..|t| - 1];
      assert (z + t)[..|z + t| - 1] == z + u;
      assert (z + t)[|z + t| - 1] == t[|t| - 1];
      LeadingZerosValue(k, u);
    }
  }

  /** The value `Atoi` gives well-formed text, or its refusal when the value does not fit. */
  lemma AtoiOfDigits(s: Bytes, v: nat)
    requires 0 < |s| && 0 < |Unsigned(s)| && AllDigits(Unsigned(s)) && DigitsValue(Unsigned(s)) == v
    ensures var n := if s[0] == Minus then -(v as int) else v as int;
      Atoi(s) == if InIntRange(n) then Ok(n) else Err(InvalidInt(s))
  {
  }

  /** Zero padding in front of the shortest digits of `n`: digits worth `n`, starting with no sign. */
  lemma PaddedDigits(k: nat, n: nat)
    ensures var t := Zeros(k) + Itoa(n);
      && 0 < |t| && AllDigits(t) && DigitsValue(t) == n && t[0] != Plus && t[0] != Minus
  {
    var d := NatDigits(n);
    assert Itoa(n) == d;
    NatDigitsValue(n);
    LeadingZerosValue(k, d);
    var t := Zeros(k) + d;
    assert t[0] == Zero || t[0] == d[0];
  }

  /** The value signed by the prefix `p`, which is empty, `+` or `-`. */
  function Signed(p: Bytes, n: nat): int {
    if p == [Minus] then -(n as int) else n
  }

  /** Padded text with an optional sign reads as its signed value exactly when that value fits. */
  lemma AtoiPadded(p: Bytes, k: nat, n: nat)
    requires p == [] || p == [Plus] || p == [Minus]
    ensures var s := p + Zeros(k) + Itoa(n);
      Atoi(s) == if InIntRange(Signed(p, n)) then Ok(Signed(p, n)) else Err(InvalidInt(s))
  {
    var t := Zeros(k) + Itoa(n);
    PaddedDigits(k, n);
    var s := p + Zeros(k) + Itoa(n);
    assert s == p + t;
    assert Unsigned(s) == t by {
      if p != [] {
        assert s[1..] == t;
      }
    }
    assert s[0] == Minus <==> p == [Minus];
    AtoiOfDigits(s, n);
  }

  lemma AtoiPaddedFits(p: Bytes, k: nat, n: nat)
    requires p == [] || p == [Plus] || p == [Minus]
    requires InIntRange(Signed(p, n))
    ensures Atoi(p + Zeros(k) + Itoa(n)) == Ok(Signed(p, n))
  {
    AtoiPadded(p, k, n);
  }

  /**
   `strconv.Atoi` also reads non-canonical text: a leading `+` and leading
   zeros leave the value unchanged, and a `-` before them negates it. The
   negated magnitude may reach 2^63, so `-0009223372036854775808` reads as
   the smallest `int`.
   */
  lemma AtoiLeadingZeros(k: nat, n: nat)
    requires n <= -MinInt
    ensures n <= MaxInt ==> Atoi(Zeros(k) + Itoa(n)) == Ok(n)
    ensures n <= MaxInt ==> Atoi([Plus] + Zeros(k) + Itoa(n)) == Ok(n)
    ensures Atoi([Minus] + Zeros(k) + Itoa(n)) == Ok(-(n as int))
  {
    if n <= MaxInt {
      AtoiPaddedFits([], k, n);
      assert [] + Zeros(k) + Itoa(n) == Zeros(k) + Itoa(n);
      AtoiPaddedFits([Plus], k, n);
    }
    AtoiPaddedFits([Minus], k, n);
  }

  /**
   Out-of-range text is refused however it is written: with or without a
   sign, and with any number of leading zeros, as in `+9223372036854775808`
   or `0009223372036854775808`.
   */
  lemma AtoiRejectsPaddedOverflow(p: Bytes, k: nat, n: nat)
    requires p == [] || p == [Plus] || p == [Minus]
    requires !InIntRange(Signed(p, n))
    ensures Atoi(p + Zeros(k) + Itoa(n)) == Err(InvalidInt(p + Zeros(k) + Itoa(n)))
  {
    AtoiPadded(p, k, n);
  }
}

=== FILE: fields.dfy ===
/**
 The per-field JSON decoding of a Scout record (summary.go): `unquote`, the
 nullable scalars `qint` and `qfloat`, the minute timestamp `mintime`, and the
 values they bind as SQL parameters.

 `UnmarshalJSON` mutates its receiver and returns an error; here it is a
 function from the receiver's value before the call and the raw token to the
 receiver's value after the call and the returned error.
 */
module Fields {
  import opened Base
  import Decimal
  import Timestamp

  /** The error an `UnmarshalJSON` returns, carrying the unquoted text it refused. */
  datatype FieldError = NotAnInt(text: Bytes) | NotAFloat(text: Bytes) | NotATime(text: Bytes)

  /** The receiver after an `UnmarshalJSON` call, and the error the call returned. */
  datatype Unmarshalled<T> = Unmarshalled(value: T, err: Option<FieldError>)

  /** A parameter value handed to the INSERT statement; `SqlNull` is Go's `nil`. */
  datatype SqlValue =
    | SqlNull
    | SqlInt(i: int)
    | SqlFloat(f: Float64)
    | SqlText(s: string)
    | SqlTime(t: Instant)

  // ---------------------------------------------------------------- unquote

  predicate IsQuote(b: byte) {
    b == DoubleQuote || b == SingleQuote
  }

  /** At least two bytes, the first a quote character, the last the same byte. */
  predicate IsQuoted(data: Bytes) {
    |data| > 1 && data[0] == data[|data| - 1] && IsQuote(data[0])
  }

  /** Strips one matching pair of `'` or `"`; any other token is returned unchanged. */
  function Unquote(data: Bytes): (r: Bytes)
    ensures |r| == |data| || |r| == |data| - 2
    ensures IsQuoted(data) <==> |r| == |data| - 2
    ensures IsQuoted(data) ==> data == [data[0]] + r + [data[0]]
    ensures !IsQuoted(data) ==> r == data
  {
    if IsQuoted(data) then data[1..|data| - 1] else data
  }

  /** Wraps a token in a pair of quote characters. */
  function Quote(q: byte, t: Bytes): (r: Bytes)
    requires IsQuote(q)
    ensures IsQuoted(r)
  {
    [q] + t + [q]
  }

  /** `Unquote` inverts `Quote`, whatever the token inside. */
  lemma UnquoteQuote(q: byte, t: Bytes)
    requires IsQuote(q)
    ensures Unquote(Quote(q, t)) == t
  {
    assert Quote(q, t)[1..|t| + 1] == t;
  }

  /** Mismatched quotes (`'5"`) and a lone quote (`"`) pass through untouched. */
  lemma UnquoteMismatched()
    ensures Unquote([SingleQuote, 53, DoubleQuote]) == [SingleQuote, 53, DoubleQuote]
    ensures Unquote([DoubleQuote]) == [DoubleQuote]
    ensures Unquote([]) == []
  {
  }

  // ---------------------------------------------------------------- qint

  /** A nullable integer; the zero value `QInt(None)` means absent. */
  datatype QInt = QInt(v: Option<int>)

  const AbsentInt: QInt := QInt(None)

  /** `qint.UnmarshalJSON`: `null` is a no-op; otherwise `strconv.Atoi` of the unquoted token. */
  function UnmarshalQInt(target: QInt, data: Bytes): (r: Unmarshalled<QInt>)
    ensures data == Null ==> r == Unmarshalled(target, None)
    ensures r.err.Some? ==> r.value == target && r.err == Some(NotAnInt(Unquote(data)))
    ensures data != Null ==> (r.err.None? <==> Decimal.Atoi(Unquote(data)).Ok?)
    ensures data != Null && r.err.None? ==> r.value == QInt(Some(Decimal.Atoi(Unquote(data)).value))
    ensures r.value.v.Some? && r.value != target ==> Decimal.InIntRange(r.value.v.value)
  {
    if data == Null then Unmarshalled(target, None)
    else
      match Decimal.Atoi(Unquote(data))
      case Err(_) => Unmarshalled(target, Some(NotAnInt(Unquote(data))))
      case Ok(n) => Unmarshalled(QInt(Some(n)), None)
  }

  /**
   `qint.V` on a possibly nil receiver: nil when the receiver is nil or the
   value is absent, the integer otherwise.
   */
  function QIntV(recv: Option<QInt>): (r: SqlValue)
    ensures r == SqlNull <==> recv.None? || recv.value.v.None?
    ensures r != SqlNull ==> r == SqlInt(recv.value.v.value)
    ensures r.SqlNull? || r.SqlInt?
  {
    match recv
    case None => SqlNull
    case Some(q) => if q.v.Some? then SqlInt(q.v.value) else SqlNull
  }

  /** Every Go `int` written as decimal text, bare or quoted, decodes to itself. */
  lemma QIntDecodesDecimal(n: int, target: QInt)
    requires Decimal.InIntRange(n)
    ensures UnmarshalQInt(target, Decimal.Itoa(n)) == Unmarshalled(QInt(Some(n)), None)
    ensures UnmarshalQInt(target, Quote(DoubleQuote, Decimal.Itoa(n))) == Unmarshalled(QInt(Some(n)), None)
    ensures UnmarshalQInt(target, Quote(SingleQuote, Decimal.Itoa(n))) == Unmarshalled(QInt(Some(n)), None)
  {
    Decimal.AtoiItoa(n);
    var t := Decimal.Itoa(n);
    assert t != Null by {
      assert t[0] == Minus || Decimal.IsDigit(t[0]);
    }
    UnquoteQuote(DoubleQuote, t);
    UnquoteQuote(SingleQuote, t);
    assert Quote(DoubleQuote, t) != Null;
  }

  /**
   A bare token and the same token in matching quotes decode alike, unless the
   bare token is the literal `null` or is itself quoted.
   */
  lemma QIntQuotedLikeBare(q: byte, t: Bytes, target: QInt)
    requires IsQuote(q) && t != Null && !IsQuoted(t)
    ensures UnmarshalQInt(target, Quote(q, t)) == UnmarshalQInt(target, t)
  {
    UnquoteQuote(q, t);
    assert Quote(q, t) != Null;
  }

  /** The quoted string `"null"` is not the null literal: it is an integer error. */
  lemma QuotedNullIsAnError(target: QInt)
    ensures UnmarshalQInt(target, Quote(DoubleQuote, Null)) == Unmarshalled(target, Some(NotAnInt(Null)))
  {
    UnquoteQuote(DoubleQuote, Null);
    assert Quote(DoubleQuote, Null) != Null;
  }

  // ---------------------------------------------------------------- qfloat

  /** An IEEE-754 double, by its bit pattern; no floating-point arithmetic is modelled. */
  datatype Float64 = Float64(bits: bv64)

  /**
   `strconv.ParseFloat(s, 64)`, left uninterpreted: the parameter gives the
   value of every accepted text and `None` for every refused one.
   */
  type FloatParser = Bytes -> Option<Float64>

  /** A nullable double; the zero value `QFloat(None)` means absent. */
  datatype QFloat = QFloat(v: Option<Float64>)

  /** `qfloat.UnmarshalJSON`: `null` is a no-op; otherwise the parser on the unquoted token. */
  function UnmarshalQFloat(parse: FloatParser, target: QFloat, data: Bytes): (r: Unmarshalled<QFloat>)
    ensures data == Null ==> r == Unmarshalled(target, None)
    ensures r.err.Some? ==> r.value == target && r.err == Some(NotAFloat(Unquote(data)))
    ensures data != Null ==> (r.err.None? <==> parse(Unquote(data)).Some?)
    ensures data != Null && r.err.None? ==> r.value == QFloat(parse(Unquote(data)))
  {
    if data == Null then Unmarshalled(target, None)
    else
      match parse(Unquote(data))
      case None => Unmarshalled(target, Some(NotAFloat(Unquote(data))))
      case Some(f) => Unmarshalled(QFloat(Some(f)), None)
  }

  /** `qfloat.V` on a possibly nil receiver. */
  function QFloatV(recv: Option<QFloat>): (r: SqlValue)
    ensures r == SqlNull <==> recv.None? || recv.value.v.None?
    ensures r != SqlNull ==> r == SqlFloat(recv.value.v.value)
    ensures r.SqlNull? || r.SqlFloat?
  {
    match recv
    case None => SqlNull
    case Some(q) => if q.v.Some? then SqlFloat(q.v.value) else SqlNull
  }

  /** Quoted and bare numeric tokens decode alike for doubles too. */
  lemma QFloatQuotedLikeBare(parse: FloatParser, q: byte, t: Bytes, target: QFloat)
    requires IsQuote(q) && t != Null && !IsQuoted(t)
    ensures UnmarshalQFloat(parse, target, Quote(q, t)) == UnmarshalQFloat(parse, target, t)
  {
    UnquoteQuote(q, t);
    assert Quote(q, t) != Null;
  }

  // ---------------------------------------------------------------- mintime

  /** A `time.Time` to the minute; the zero value is Go's zero time. */
  datatype MinTime = MinTime(instant: Instant)

  const ZeroTime: MinTime := MinTime(ZeroInstant)

  /**
   `mintime.UnmarshalJSON`: `null` is a no-op; otherwise the unquoted token
   must be a UTC time in the layout "2006-01-02 15:04".
   */
  function UnmarshalMinTime(target: MinTime, data: Bytes): (r: Unmarshalled<MinTime>)
    ensures data == Null ==> r == Unmarshalled(target, None)
    ensures r.err.Some? ==> r.value == target && r.err == Some(NotATime(Unquote(data)))
    ensures data != Null ==> (r.err.None? <==> Timestamp.ParseLayout(Unquote(data)).Some?)
    ensures data != Null && r.err.None? ==>
      r.value.instant == Timestamp.ToInstant(Timestamp.ParseLayout(Unquote(data)).value)
    ensures data != Null && r.err.None? ==> r.value.instant % NanosPerMinute == 0
  {
    if data == Null then Unmarshalled(target, None)
    else
      match Timestamp.ParseLayout(Unquote(data))
      case None => Unmarshalled(target, Some(NotATime(Unquote(data))))
      case Some(c) => Unmarshalled(MinTime(Timestamp.ToInstant(c)), None)
  }

  /** Valid fields written in the layout, bare or quoted, decode to the instant they name. */
  lemma MinTimeDecodesLayout(c: Timestamp.Civil, q: byte, target: MinTime)
    requires Timestamp.Valid(c) && IsQuote(q)
    ensures UnmarshalMinTime(target, Timestamp.Format(c)) == Unmarshalled(MinTime(Timestamp.ToInstant(c)), None)
    ensures UnmarshalMinTime(target, Quote(q, Timestamp.Format(c))) == Unmarshalled(MinTime(Timestamp.ToInstant(c)), None)
  {
    var s := Timestamp.Format(c);
    Timestamp.ParseFormat(c);
    assert s != Null;
    assert !IsQuoted(s);
    UnquoteQuote(q, s);
    assert Quote(q, s) != Null;
  }

  /**
   A present timestamp collides with the "absent" zero value exactly when its
   text names 0001-01-01 00:00: the type cannot tell the two apart.
   */
  lemma MinTimeZeroCollision(data: Bytes)
    requires data != Null && UnmarshalMinTime(ZeroTime, data).err.None?
    ensures UnmarshalMinTime(ZeroTime, data).value == ZeroTime
        <==> Timestamp.ParseLayout(Unquote(data)) == Some(Timestamp.Civil(1, 1, 1, 0, 0))
  {
    var c := Timestamp.ParseLayout(Unquote(data)).value;
    Timestamp.ZeroInstantFields(c);
  }

  // ---------------------------------------------------------------- members

  /**
   Decoding one member of a JSON object into a fresh (zero) `qint`: `None`
   is a member missing from the object, for which the decoder is never called.
   */
  function DecodeQIntMember(token: Option<Bytes>): (r: Unmarshalled<QInt>)
    ensures r.value.v.Some? <==> token.Some? && token.value != Null && r.err.None?
    ensures r.value.v.Some? ==> Decimal.Atoi(Unquote(token.value)) == Ok(r.value.v.value)
    ensures r.err.Some? <==> token.Some? && token.value != Null && Decimal.Atoi(Unquote(token.value)).Err?
  {
    match token
    case None => Unmarshalled(AbsentInt, None)
    case Some(data) => UnmarshalQInt(AbsentInt, data)
  }

  /** An omitted member and an explicit `null` both leave the field absent, never zero. */
  lemma OmittedIsNull()
    ensures DecodeQIntMember(None) == DecodeQIntMember(Some(Null)) == Unmarshalled(AbsentInt, None)
    ensures QIntV(Some(DecodeQIntMember(Some(Null)).value)) == SqlNull
  {
  }
}

=== FILE: ingest.dfy ===
/**
 Ingestion of decoded snapshots into the `scout` table (`writeSummaries`,
 main.go). The table is a map from the primary key `(object_name, last_run)`
 to the bound row; `INSERT ... ON CONFLICT DO NOTHING` is insert-or-ignore on
 that map. The database's own failures are inputs (`DbEnv`).
 */
module Ingest {
  import opened Base
  import opened Fields
  import opened Records

  type Row = seq<SqlValue>

  /** The rows of `scout`, by primary key. */
  type Store = map<Key, Row>

  /** Every record of every snapshot, in the order of the nested loops. */
  function Candidates(ss: seq<Summary>): (ds: seq<Detail>)
    ensures forall s, d | s in ss && d in s.data :: d in ds
    ensures forall d | d in ds :: exists s | s in ss :: d in s.data
  {
    if |ss| == 0 then [] else ss[0].data + Candidates(ss[1..])
  }

  lemma {:induction false} CandidatesAppend(a: seq<Summary>, b: seq<Summary>)
    ensures Candidates(a + b) == Candidates(a) + Candidates(b)
  {
    if |a| > 0 {
      assert (a + b)[1..] == a[1..] + b;
      CandidatesAppend(a[1..], b);
    } else {
      assert a + b == b;
    }
  }

  /** The number of candidates of one snapshot is its number of records. */
  lemma CandidatesOfOne(s: Summary)
    ensures Candidates([s]) == s.data
  {
    assert [s][1..] == [];
  }

  /** The keys of a sequence of records. */
  function KeysOf(ds: seq<Detail>): set<Key> {
    if |ds| == 0 then {} else {KeyOf(ds[0])} + KeysOf(ds[1..])
  }

  lemma {:induction false} KeysOfMembers(ds: seq<Detail>)
    ensures forall i | 0 <= i < |ds| :: KeyOf(ds[i]) in KeysOf(ds)
    ensures forall k | k in KeysOf(ds) :: exists i | 0 <= i < |ds| :: KeyOf(ds[i]) == k
  {
    if |ds| > 0 {
      KeysOfMembers(ds[1..]);
      forall k | k in KeysOf(ds)
        ensures exists i | 0 <= i < |ds| :: KeyOf(ds[i]) == k
      {
        if k != KeyOf(ds[0]) {
          var i :| 0 <= i < |ds[1..]| && KeyOf(ds[1..][i]) == k;
          assert KeyOf(ds[i + 1]) == k;
        }
      }
    }
  }

  /** The records executed before the loop stopped: all of them, or those before the failure. */
  function Executed(ds: seq<Detail>, failedAt: Option<nat>): seq<Detail>
    requires failedAt.Some? ==> failedAt.value <= |ds|
  {
    if failedAt.Some? then ds[..failedAt.value] else ds
  }

  function Later(failedAt: Option<nat>): Option<nat> {
    if failedAt.Some? then Some(failedAt.value + 1) else None
  }

  lemma KeysOfExecuted(ds: seq<Detail>, failedAt: Option<nat>)
    requires 0 < |ds| && (failedAt.Some? ==> failedAt.value <= |ds| - 1)
    ensures KeysOf(Executed(ds, Later(failedAt))) == {KeyOf(ds[0])} + KeysOf(Executed(ds[1..], failedAt))
  {
    if failedAt.Some? {
      assert ds[..failedAt.value + 1][1..] == ds[1..][..failedAt.value];
    }
  }

  /** The outcome of executing the INSERT once per candidate. */
  datatype Batch = Batch(store: Store, inserted: nat, failedAt: Option<nat>)

  function Earlier(failAt: Option<nat>): Option<nat> {
    if failAt.Some? && failAt.value > 0 then Some(failAt.value - 1) else None
  }

  /**
   Executes the INSERT for each record in order, adding `RowsAffected` to the
   count: a record whose key is already present affects no row. The execution
   at position `failAt` returns an error and stops the loop.
   */
  function ExecAll(store: Store, ds: seq<Detail>, failAt: Option<nat>): (r: Batch)
    ensures r.failedAt.Some? <==> failAt.Some? && failAt.value < |ds|
    ensures r.failedAt.Some? ==> r.failedAt == failAt
    ensures r.inserted <= |ds|
    decreases |ds|
  {
    if |ds| == 0 then Batch(store, 0, None)
    else if failAt == Some(0) then Batch(store, 0, Some(0))
    else
      var known := KeyOf(ds[0]) in store;
      var next := if known then store else store[KeyOf(ds[0]) := Bind(ds[0])];
      var rest := ExecAll(next, ds[1..], Earlier(failAt));
      Batch(rest.store, (if known then 0 else 1) + rest.inserted, Later(rest.failedAt))
  }

  /** The loop never changes or removes a row that was already there. */
  lemma {:induction false} ExecAllKeepsRows(store: Store, ds: seq<Detail>, failAt: Option<nat>)
    ensures var r := ExecAll(store, ds, failAt);
      forall k | k in store :: k in r.store && r.store[k] == store[k]
    decreases |ds|
  {
    if |ds| > 0 && failAt != Some(0) {
      var next := if KeyOf(ds[0]) in store then store else store[KeyOf(ds[0]) := Bind(ds[0])];
      assert ExecAll(store, ds, failAt).store == ExecAll(next, ds[1..], Earlier(failAt)).store;
      assert forall k | k in store :: k in next && next[k] == store[k];
      ExecAllKeepsRows(next, ds[1..], Earlier(failAt));
    }
  }

  /** The loop adds exactly the keys of the records it executed. */
  lemma {:induction false} ExecAllKeys(store: Store, ds: seq<Detail>, failAt: Option<nat>)
    ensures var r := ExecAll(store, ds, failAt);
      r.store.Keys == store.Keys + KeysOf(Executed(ds, r.failedAt))
    decreases |ds|
  {
    if |ds| > 0 && failAt != Some(0) {
      var next := if KeyOf(ds[0]) in store then store else store[KeyOf(ds[0]) := Bind(ds[0])];
      var rest := ExecAll(next, ds[1..], Earlier(failAt));
      ExecAllKeys(next, ds[1..], Earlier(failAt));
      KeysOfExecuted(ds, rest.failedAt);
    }
  }

  /** The inserted count is the number of rows the loop added. */
  lemma {:induction false} ExecAllCount(store: Store, ds: seq<Detail>, failAt: Option<nat>)
    ensures |ExecAll(store, ds, failAt).store| == |store| + ExecAll(store, ds, failAt).inserted
    decreases |ds|
  {
    if |ds| > 0 && failAt != Some(0) {
      var next := if KeyOf(ds[0]) in store then store else store[KeyOf(ds[0]) := Bind(ds[0])];
      ExecAllCount(next, ds[1..], Earlier(failAt));
    }
  }

  /** Old rows kept, executed keys added, count equal to rows added. */
  lemma ExecAllTable(store: Store, ds: seq<Detail>, failAt: Option<nat>)
    ensures var r := ExecAll(store, ds, failAt);
      && (forall k | k in store :: k in r.store && r.store[k] == store[k])
      && r.store.Keys == store.Keys + KeysOf(Executed(ds, r.failedAt))
      && |r.store| == |store| + r.inserted
  {
    ExecAllKeepsRows(store, ds, failAt);
    ExecAllKeys(store, ds, failAt);
    ExecAllCount(store, ds, failAt);
  }

  /** `d` is the first record of `ds` with its key. */
  predicate FirstWithKey(ds: seq<Detail>, i: int) {
    0 <= i < |ds| && forall j | 0 <= j < i :: KeyOf(ds[j]) != KeyOf(ds[i])
  }

  /**
   A new key's row holds the parameters of the first record that carries the
   key; later records with the same key are ignored by ON CONFLICT DO NOTHING.
   */
  lemma {:induction false} ExecAllFirstRow(store: Store, ds: seq<Detail>, failAt: Option<nat>, i: nat)
    requires failAt.None? || failAt.value >= |ds|
    requires FirstWithKey(ds, i) && KeyOf(ds[i]) !in store
    ensures var r := ExecAll(store, ds, failAt);
      KeyOf(ds[i]) in r.store && r.store[KeyOf(ds[i])] == Bind(ds[i])
    decreases |ds|
  {
    var k0 := KeyOf(ds[0]);
    var next := if k0 in store then store else store[k0 := Bind(ds[0])];
    assert ExecAll(store, ds, failAt).store == ExecAll(next, ds[1..], Earlier(failAt)).store;
    if i == 0 {
      ExecAllKeepsRows(next, ds[1..], Earlier(failAt));
    } else {
      assert KeyOf(ds[i]) != k0;
      assert KeyOf(ds[i]) !in next;
      assert ds[1..][i - 1] == ds[i];
      assert forall j | 0 <= j < i - 1 :: ds[1..][j] == ds[j + 1];
      ExecAllFirstRow(next, ds[1..], Earlier(failAt), i - 1);
    }
  }

  /** The inserted count is the number of distinct keys the store did not hold. */
  lemma InsertedCountsNewKeys(store: Store, ds: seq<Detail>)
    ensures ExecAll(store, ds, None).inserted == |KeysOf(ds) - store.Keys|
  {
    var r := ExecAll(store, ds, None);
    ExecAllTable(store, ds, None);
    var added := KeysOf(ds) - store.Keys;
    assert r.store.Keys == store.Keys + added;
    assert store.Keys !! added;
    assert |r.store.Keys| == |store.Keys| + |added|;
    assert |r.store| == |r.store.Keys| && |store| == |store.Keys|;
  }

  /** A batch whose keys are all present changes nothing and inserts nothing. */
  lemma ExecAllKnownKeys(store: Store, ds: seq<Detail>, failAt: Option<nat>)
    requires failAt.None? || failAt.value >= |ds|
    requires KeysOf(ds) <= store.Keys
    ensures ExecAll(store, ds, failAt) == Batch(store, 0, None)
  {
    var r := ExecAll(store, ds, failAt);
    ExecAllTable(store, ds, failAt);
    assert Executed(ds, r.failedAt) == ds;
    assert r.store.Keys == store.Keys;
    assert r.store == store;
  }

  /** What the database does when asked: which steps fail, and at which record an execution fails. */
  datatype DbEnv = DbEnv(
    connectOk: bool,
    schemaOk: bool,
    prepareOk: bool,
    beginOk: bool,
    execFailsAt: Option<nat>,
    commitOk: bool)

  datatype IngestError =
    | ConnectFailed
    | SchemaFailed
    | PrepareFailed
    | BeginFailed
    | ExecFailed(index: nat)
    | CommitFailed

  /** An error raised once INSERTs may have run: a failed execution or a failed commit. */
  predicate AfterInserts(e: IngestError) {
    e.ExecFailed? || e.CommitFailed?
  }

  /** The counts logged after a successful commit. */
  datatype Counts = Counts(candidates: nat, inserted: nat) {
    function Duplicates(): int {
      candidates - inserted
    }
  }

  /** The table after a call, and what the call returned. */
  datatype Written = Written(store: Store, outcome: Result<Counts, IngestError>)

  /** The database steps before the first INSERT all succeed. */
  predicate Ready(env: DbEnv) {
    env.connectOk && env.schemaOk && env.prepareOk && env.beginOk
  }

  /** Every step succeeds for a batch of `n` candidates. */
  predicate Succeeds(env: DbEnv, n: nat) {
    Ready(env) && (env.execFailsAt.None? || env.execFailsAt.value >= n) && env.commitOk
  }

  /** The steps before the first INSERT, in the order `writeSummaries` takes them, each with its error. */
  function SetupSteps(env: DbEnv): seq<(bool, IngestError)> {
    [(env.connectOk, ConnectFailed), (env.schemaOk, SchemaFailed),
     (env.prepareOk, PrepareFailed), (env.beginOk, BeginFailed)]
  }

  /** Step `i` is the first of `steps` to fail. */
  predicate FirstFailure(steps: seq<(bool, IngestError)>, i: int) {
    0 <= i < |steps| && !steps[i].0 && forall j | 0 <= j < i :: steps[j].0
  }

  /** The error of the first failing step before the INSERTs, if any. */
  function SetupError(env: DbEnv): (e: Option<IngestError>)
    ensures e.None? <==> Ready(env)
    ensures e.Some? ==> exists i :: FirstFailure(SetupSteps(env), i) && e.value == SetupSteps(env)[i].1
  {
    var steps := SetupSteps(env);
    if !env.connectOk then assert FirstFailure(steps, 0); Some(ConnectFailed)
    else if !env.schemaOk then assert FirstFailure(steps, 1); Some(SchemaFailed)
    else if !env.prepareOk then assert FirstFailure(steps, 2); Some(PrepareFailed)
    else if !env.beginOk then assert FirstFailure(steps, 3); Some(BeginFailed)
    else None
  }

  /**
   `writeSummaries` with the INSERTs inside the transaction: they run on a
   copy of the table that the commit installs and the rollback discards.
   */
  function WriteSummaries(store: Store, ss: seq<Summary>, env: DbEnv): (r: Written)
    ensures r.outcome.Err? ==> r.store == store
    ensures r.outcome.Ok? <==> Succeeds(env, |Candidates(ss)|)
    ensures env.connectOk && !env.schemaOk ==> r.outcome == Err(SchemaFailed)
    ensures r.outcome.Ok? ==> r.outcome.value.candidates == |Candidates(ss)|
    ensures r.outcome.Ok? ==> r.outcome.value.inserted <= r.outcome.value.candidates
    ensures r.outcome.Ok? ==> |r.store| == |store| + r.outcome.value.inserted
    ensures r.outcome.Ok? ==> r.store.Keys == store.Keys + KeysOf(Candidates(ss))
    ensures forall k | k in store :: k in r.store && r.store[k] == store[k]
  {
    if SetupError(env).Some? then Written(store, Err(SetupError(env).value))
    else
      var ds := Candidates(ss);
      var tx := ExecAll(store, ds, env.execFailsAt);
      ExecAllTable(store, ds, env.execFailsAt);
      if tx.failedAt.Some? then Written(store, Err(ExecFailed(tx.failedAt.value)))
      else if !env.commitOk then Written(store, Err(CommitFailed))
      else Written(tx.store, Ok(Counts(|ds|, tx.inserted)))
  }

  /**
   `writeSummaries` as written: the INSERT is prepared on the connection pool,
   not on the transaction, so every execution commits on its own and neither
   the rollback nor a failed commit takes anything back.
   */
  function WriteSummariesAsWritten(store: Store, ss: seq<Summary>, env: DbEnv): (r: Written)
    ensures r.outcome.Ok? <==> Succeeds(env, |Candidates(ss)|)
    ensures SetupError(env).Some? ==> r.store == store
    ensures r.outcome.Err? && !AfterInserts(r.outcome.error) ==> r.store == store
    ensures Ready(env) && env.execFailsAt.Some? && env.execFailsAt.value < |Candidates(ss)| ==>
      r.store.Keys == store.Keys + KeysOf(Candidates(ss)[..env.execFailsAt.value])
    ensures r.store.Keys <= store.Keys + KeysOf(Candidates(ss))
    ensures forall k | k in store :: k in r.store && r.store[k] == store[k]
  {
    if SetupError(env).Some? then Written(store, Err(SetupError(env).value))
    else
      var ds := Candidates(ss);
      var run := ExecAll(store, ds, env.execFailsAt);
      ExecAllTable(store, ds, env.execFailsAt);
      assert run.failedAt.Some? ==> KeysOf(ds[..run.failedAt.value]) <= KeysOf(ds) by {
        if run.failedAt.Some? {
          KeysOfPrefix(ds, run.failedAt.value);
        }
      }
      if run.failedAt.Some? then Written(run.store, Err(ExecFailed(run.failedAt.value)))
      else if !env.commitOk then Written(run.store, Err(CommitFailed))
      else Written(run.store, Ok(Counts(|ds|, run.inserted)))
  }

  lemma KeysOfPrefix(ds: seq<Detail>, n: nat)
    requires n <= |ds|
    ensures KeysOf(ds[..n]) <= KeysOf(ds)
  {
    KeysOfMembers(ds[..n]);
    KeysOfMembers(ds);
    forall k | k in KeysOf(ds[..n]) ensures k in KeysOf(ds) {
      var i :| 0 <= i < n && KeyOf(ds[..n][i]) == k;
      assert ds[..n][i] == ds[i];
    }
  }

  /**
   When an execution fails after an earlier record with a new key, the code as
   written returns an error yet leaves that record in the table.
   */
  lemma AsWrittenKeepsPartialRows(store: Store, ss: seq<Summary>, env: DbEnv, j: nat)
    requires Ready(env) && env.execFailsAt.Some?
    requires j < env.execFailsAt.value < |Candidates(ss)|
    requires KeyOf(Candidates(ss)[j]) !in store
    ensures WriteSummariesAsWritten(store, ss, env).outcome.Err?
    ensures KeyOf(Candidates(ss)[j]) in WriteSummariesAsWritten(store, ss, env).store
    ensures WriteSummariesAsWritten(store, ss, env).store != store
    ensures WriteSummaries(store, ss, env).store == store
  {
    var ds := Candidates(ss);
    var k := env.execFailsAt.value;
    assert ds[..k][j] == ds[j];
    KeysOfMembers(ds[..k]);
  }

  /**
   Which `writeSummaries` a run calls: `InTransaction`, where the INSERTs run
   inside the transaction that `writeSummaries` opens with `db.Begin`, as its
   `tx.Rollback` and `tx.Commit` calls intend, or `AsWritten`, where the
   statement comes from `db.Prepare` and each INSERT commits on its own.
   */
  datatype Writer = InTransaction | AsWritten

  /**
   `writeSummaries` under either writer. Both return the same outcome and,
   on success, the same table; they differ only in the table an execution or
   commit failure leaves behind.
   */
  function Write(wr: Writer, store: Store, ss: seq<Summary>, env: DbEnv): (r: Written)
    ensures r.outcome == WriteSummaries(store, ss, env).outcome
    ensures r.outcome.Ok? ==> r.store == WriteSummaries(store, ss, env).store
    ensures r.outcome.Err? && (wr.InTransaction? || SetupError(env).Some?) ==> r.store == store
    ensures r.outcome.Err? && !AfterInserts(r.outcome.error) ==> r.store == store
    ensures r.store.Keys <= store.Keys + KeysOf(Candidates(ss))
    ensures forall k | k in store :: k in r.store && r.store[k] == store[k]
  {
    match wr
    case InTransaction => WriteSummaries(store, ss, env)
    case AsWritten => WriteSummariesAsWritten(store, ss, env)
  }

  /**
   After a successful ingestion, the row of every key that was new holds the
   parameters of the first candidate with that key.
   */
  lemma WriteSummariesRows(store: Store, ss: seq<Summary>, env: DbEnv, i: nat)
    requires Succeeds(env, |Candidates(ss)|)
    requires FirstWithKey(Candidates(ss), i) && KeyOf(Candidates(ss)[i]) !in store
    ensures var r := WriteSummaries(store, ss, env);
      KeyOf(Candidates(ss)[i]) in r.store && r.store[KeyOf(Candidates(ss)[i])] == Bind(Candidates(ss)[i])
  {
    ExecAllFirstRow(store, Candidates(ss), env.execFailsAt, i);
  }

  /** Writing snapshots whose keys are all stored inserts nothing and changes nothing. */
  lemma WriteKnownKeys(store: Store, ss: seq<Summary>, env: DbEnv)
    requires Succeeds(env, |Candidates(ss)|)
    requires KeysOf(Candidates(ss)) <= store.Keys
    ensures WriteSummaries(store, ss, env) == Written(store, Ok(Counts(|Candidates(ss)|, 0)))
  {
    ExecAllKnownKeys(store, Candidates(ss), env.execFailsAt);
  }

  /**
   A second ingestion of the same snapshots, on a database where every step
   succeeds again, inserts nothing and changes nothing.
   */
  lemma WriteIdempotent(store: Store, ss: seq<Summary>, env: DbEnv, again: DbEnv)
    requires Succeeds(env, |Candidates(ss)|) && Succeeds(again, |Candidates(ss)|)
    ensures var first := WriteSummaries(store, ss, env);
      var second := WriteSummaries(first.store, ss, again);
      && second.store == first.store
      && second.outcome == Ok(Counts(|Candidates(ss)|, 0))
  {
    var first := WriteSummaries(store, ss, env);
    WriteKnownKeys(first.store, ss, again);
  }

  /**
   The counts of a successful ingestion: the inserted rows are the distinct
   new keys, and with distinct candidate keys the duplicates are exactly the
   candidates whose key was already stored.
   */
  lemma CountsOfIngestion(store: Store, ss: seq<Summary>, env: DbEnv)
    requires Succeeds(env, |Candidates(ss)|)
    ensures var c := WriteSummaries(store, ss, env).outcome.value;
      && c.inserted == |KeysOf(Candidates(ss)) - store.Keys|
      && (|KeysOf(Candidates(ss))| == |Candidates(ss)| ==>
            c.Duplicates() == |KeysOf(Candidates(ss)) * store.Keys|)
  {
    var ds := Candidates(ss);
    var keys := KeysOf(ds);
    InsertedCountsNewKeys(store, ds);
    assert keys == (keys - store.Keys) + (keys * store.Keys);
    assert (keys - store.Keys) !! (keys * store.Keys);
  }
}

=== FILE: pipeline.dfy ===
/**
 One run of the scraper (`Main` in main.go): in replay mode, re-ingest every
 cached snapshot; otherwise fetch a new snapshot unless the cache was written
 in the last fifteen minutes, keep a copy of it in the cache, check its
 version and ingest it. The clock, the directory, the HTTP response and the
 database are inputs.
 */
module Pipeline {
  import opened Base
  import opened Fields
  import opened Records
  import opened Ingest
  import opened Cache
  import Settings

  /** `minTimeBetweenFetches`: fifteen minutes. */
  const MinTimeBetweenFetches: int := 15 * NanosPerMinute

  /** What `http.Get` gives: a transport error, or a status and a body. */
  datatype Fetch = TransportFailed | Response(status: int, body: Payload)

  /** Everything outside the program that a run consults. */
  datatype World = World(now: Instant, cache: Dir, fetch: Fetch, cacheFileOk: bool, db: DbEnv)

  /** Why a run fails; each case is one `return` of an error in the source. */
  datatype Error =
    | CacheFailed(cause: CacheError)
    | FetchFailed
    | BadStatus(status: int)
    | CacheFileFailed
    | UndecodableBody
    | UnknownVersion(version: string)
    | ListFailed
    | ReplayFailed(file: FileError)
    | WriteFailed(write: IngestError)

  /**
   A run error that may leave rows behind when the INSERTs commit one by one:
   an INSERT or the commit failed. A failed connect, CREATE TABLE, Prepare or
   Begin writes nothing under either writer.
   */
  predicate PartialWrite(e: Error) {
    e.WriteFailed? && AfterInserts(e.write)
  }

  /** A successful run either did nothing or ingested and logged its counts. */
  datatype Report = NothingToDo | Ingested(counts: Counts)

  /** The result of a run, the table and the cache directory after it, and whether it called the API. */
  datatype Run = Run(outcome: Result<Report, Error>, store: Store, cache: Dir, fetched: bool)

  /**
   The cache directory after a new file with `body` is written at `now`;
   `MkdirAll` creates a missing one. An unreadable directory is treated like a
   missing one; a run never gets here with one, since the freshness gate
   (`ModifiedSince`) stops it first and replay never writes the cache.
   */
  function AddCacheFile(dir: Dir, now: Instant, body: Payload): (r: Dir)
    ensures r.Listing? && |r.entries| > 0
    ensures r.entries[|r.entries| - 1] == Entry(true, now, true, body)
    ensures dir.Listing? ==> r.entries[..|r.entries| - 1] == dir.entries
    ensures !dir.Listing? ==> r == Listing([Entry(true, now, true, body)])
  {
    var e := Entry(true, now, true, body);
    match dir
    case Listing(es) => assert (es + [e])[..|es|] == es; Listing(es + [e])
    case _ => Listing([e])
  }

  /** The outcome of `writeSummaries` as the outcome of the run. */
  function Finish(w: Written, cache: Dir, fetched: bool): (r: Run)
    ensures r.store == w.store && r.cache == cache && r.fetched == fetched
    ensures r.outcome.Ok? <==> w.outcome.Ok?
    ensures w.outcome.Ok? ==> r.outcome == Ok(Ingested(w.outcome.value))
  {
    match w.outcome
    case Ok(c) => Run(Ok(Ingested(c)), w.store, cache, fetched)
    case Err(e) => Run(Err(WriteFailed(e)), w.store, cache, fetched)
  }

  /** `replayFromCache`: ingest every kept snapshot of the directory, in listing order. */
  function Replay(wr: Writer, w: World, store: Store): (r: Run)
    ensures !r.fetched && r.cache == w.cache
    ensures r.outcome.Err? && (wr.InTransaction? || !PartialWrite(r.outcome.error)) ==> r.store == store
    ensures forall k | k in store :: k in r.store && r.store[k] == store[k]
    ensures w.cache.Listing? ==> r.store.Keys <= store.Keys + KeysOf(Candidates(KeptSummaries(w.cache.entries)))
    ensures w.cache.Missing? ==> r == Run(Ok(NothingToDo), store, w.cache, false)
    ensures w.cache.Unreadable? ==> r.outcome == Err(ListFailed)
    ensures w.cache.Listing? && (exists j | 0 <= j < |w.cache.entries| :: Broken(w.cache.entries[j])) ==>
      r.outcome.Err? && r.outcome.error.ReplayFailed?
    ensures r.outcome.Ok? && w.cache.Listing? ==>
      r.store.Keys == store.Keys + KeysOf(Candidates(KeptSummaries(w.cache.entries)))
  {
    match w.cache
    case Missing => Run(Ok(NothingToDo), store, w.cache, false)
    case Unreadable => Run(Err(ListFailed), store, w.cache, false)
    case Listing(es) =>
      match ReplayFiles(es)
      case Err(e) => Run(Err(ReplayFailed(e)), store, w.cache, false)
      case Ok(kept) => Finish(Write(wr, store, kept, w.db), w.cache, false)
  }

  /** The live path after the freshness gate let it through. */
  function Live(wr: Writer, w: World, store: Store): (r: Run)
    ensures r.fetched
    ensures r.outcome.Err? && (wr.InTransaction? || !PartialWrite(r.outcome.error)) ==> r.store == store
    ensures forall k | k in store :: k in r.store && r.store[k] == store[k]
    ensures r.store != store ==>
      && w.fetch.Response? && w.fetch.body.Wellformed?
      && r.store.Keys <= store.Keys + KeysOf(w.fetch.body.summary.data)
    ensures w.fetch.TransportFailed? ==> r.outcome == Err(FetchFailed) && r.cache == w.cache
    ensures w.fetch.Response? && w.fetch.status != 200 ==> r.outcome == Err(BadStatus(w.fetch.status)) && r.cache == w.cache
    ensures w.fetch.Response? && w.fetch.body.Wellformed? && w.fetch.body.summary.signature.version != ExpectedVersion ==>
      r.outcome.Err? && r.store == store
    ensures r.outcome.Ok? ==>
      && w.fetch.Response? && w.fetch.status == 200 && w.cacheFileOk
      && w.fetch.body.Wellformed? && w.fetch.body.summary.signature.version == ExpectedVersion
      && r.cache == AddCacheFile(w.cache, w.now, w.fetch.body)
  {
    match w.fetch
    case TransportFailed => Run(Err(FetchFailed), store, w.cache, true)
    case Response(status, body) =>
      if status != 200 then Run(Err(BadStatus(status)), store, w.cache, true)
      else if !w.cacheFileOk then Run(Err(CacheFileFailed), store, w.cache, true)
      else
        var cache := AddCacheFile(w.cache, w.now, body);
        match body
        case Malformed => Run(Err(UndecodableBody), store, cache, true)
        case Wellformed(s) =>
          if s.signature.version != ExpectedVersion then Run(Err(UnknownVersion(s.signature.version)), store, cache, true)
          else CandidatesOfOne(s); Finish(Write(wr, store, [s], w.db), cache, true)
  }

  /** The instant before which cache files count as stale. */
  function Horizon(w: World): Instant {
    w.now - MinTimeBetweenFetches
  }

  /**
   `Main`: replay, or the freshness gate followed by the live path, with the
   INSERTs of `writeSummaries` committed as `wr` says.
   */
  function MainRun(cfg: Settings.Config, w: World, store: Store, wr: Writer): (r: Run)
    ensures r.outcome.Err? && (wr.InTransaction? || !PartialWrite(r.outcome.error)) ==> r.store == store
    ensures forall k | k in store :: k in r.store && r.store[k] == store[k]
    ensures r.fetched <==> !cfg.replay && ModifiedSince(w.cache, Horizon(w)) == Ok(false)
    ensures !r.fetched ==> r.cache == w.cache
  {
    if cfg.replay then Replay(wr, w, store)
    else
      match ModifiedSince(w.cache, Horizon(w))
      case Err(e) => Run(Err(CacheFailed(e)), store, w.cache, false)
      case Ok(recent) =>
        if recent then Run(Ok(NothingToDo), store, w.cache, false)
        else Live(wr, w, store)
  }

  // ---------------------------------------------------------------- properties of a run

  /**
   In live mode, a regular cache file written within the last fifteen minutes
   ends the run successfully, without a fetch and without touching the table.
   */
  lemma FreshCacheSkipsFetch(cfg: Settings.Config, w: World, store: Store, wr: Writer, j: nat)
    requires !cfg.replay && w.cache.Listing? && j < |w.cache.entries|
    requires w.cache.entries[j].regular && w.cache.entries[j].modTime > w.now - MinTimeBetweenFetches
    ensures MainRun(cfg, w, store, wr) == Run(Ok(NothingToDo), store, w.cache, false)
  {
    assert FreshEntry(w.cache.entries[j], Horizon(w));
  }

  /** Replay mode never consults the clock or the API. */
  lemma ReplayIgnoresClockAndNetwork(cfg: Settings.Config, w1: World, w2: World, store: Store, wr: Writer)
    requires cfg.replay
    requires w1.cache == w2.cache && w1.db == w2.db
    ensures MainRun(cfg, w1, store, wr) == MainRun(cfg, w2, store, wr)
    ensures !MainRun(cfg, w1, store, wr).fetched
  {
  }

  /**
   On the live path, a bad status or an unknown version ends the run with an
   error before anything is written to the table.
   */
  lemma LiveRejectionsWriteNothing(cfg: Settings.Config, w: World, store: Store, wr: Writer)
    requires !cfg.replay && ModifiedSince(w.cache, Horizon(w)) == Ok(false)
    requires w.fetch.Response?
    requires w.fetch.status != 200
      || (w.fetch.body.Wellformed? && w.fetch.body.summary.signature.version != ExpectedVersion)
    ensures MainRun(cfg, w, store, wr).outcome.Err?
    ensures MainRun(cfg, w, store, wr).store == store
  {
  }

  /**
   The two writers give every run the same result, gate and cache; the table
   differs only after an execution or commit failure.
   */
  lemma WritersAgree(cfg: Settings.Config, w: World, store: Store)
    ensures var a := MainRun(cfg, w, store, InTransaction);
      var b := MainRun(cfg, w, store, AsWritten);
      && a.outcome == b.outcome && a.fetched == b.fetched && a.cache == b.cache
      && (a.outcome.Ok? ==> a.store == b.store)
  {
  }

  /**
   The run as written: whenever the freshness gate lets a live run through,
   a fetched snapshot whose second new record fails to insert ends the run
   with an error, yet the first record stays in the table. With the INSERTs
   inside the transaction the table is unchanged.
   */
  lemma AsWrittenRunKeepsPartialRows(cfg: Settings.Config, w: World, store: Store, j: nat)
    requires !cfg.replay && ModifiedSince(w.cache, Horizon(w)) == Ok(false)
    requires w.fetch.Response? && w.fetch.status == 200 && w.cacheFileOk
    requires w.fetch.body.Wellformed? && w.fetch.body.summary.signature.version == ExpectedVersion
    requires Ready(w.db) && w.db.execFailsAt.Some?
    requires j < w.db.execFailsAt.value < |w.fetch.body.summary.data|
    requires KeyOf(w.fetch.body.summary.data[j]) !in store
    ensures MainRun(cfg, w, store, AsWritten).outcome.Err?
    ensures KeyOf(w.fetch.body.summary.data[j]) in MainRun(cfg, w, store, AsWritten).store
    ensures MainRun(cfg, w, store, InTransaction).store == store
  {
    var s := w.fetch.body.summary;
    CandidatesOfOne(s);
    AsWrittenKeepsPartialRows(store, [s], w.db, j);
  }

  /**
   A run that fetched and cached a snapshot shuts the gate: a second live run
   less than fifteen minutes later does not fetch again.
   */
  lemma SecondRunWithinWindowSkips(cfg: Settings.Config, w: World, store: Store, wr: Writer, later: Instant, w2: World, wr2: Writer)
    requires !cfg.replay
    requires MainRun(cfg, w, store, wr).outcome.Ok? && MainRun(cfg, w, store, wr).fetched
    requires w.now <= later < w.now + MinTimeBetweenFetches
    requires w2.now == later && w2.cache == MainRun(cfg, w, store, wr).cache
    ensures MainRun(cfg, w2, MainRun(cfg, w, store, wr).store, wr2) ==
      Run(Ok(NothingToDo), MainRun(cfg, w, store, wr).store, w2.cache, false)
  {
    var r := MainRun(cfg, w, store, wr);
    var es := r.cache.entries;
    assert es[|es| - 1].modTime == w.now;
    FreshCacheSkipsFetch(cfg, w2, r.store, wr2, |es| - 1);
  }

  /** What a successful live run that fetched did: it cached the body and ingested the snapshot. */
  lemma FetchedRun(cfg: Settings.Config, w: World, store: Store, wr: Writer)
    requires !cfg.replay && MainRun(cfg, w, store, wr).outcome.Ok? && MainRun(cfg, w, store, wr).fetched
    ensures w.fetch.Response? && w.fetch.body.Wellformed?
    ensures var ws := WriteSummaries(store, [w.fetch.body.summary], w.db);
      && ws.outcome.Ok?
      && MainRun(cfg, w, store, wr).store == ws.store
      && MainRun(cfg, w, store, wr).cache == AddCacheFile(w.cache, w.now, w.fetch.body)
  {
  }

  /**
   A snapshot that was fetched into an empty cache and ingested, then replayed
   against a database where every step succeeds, is reported in full as
   duplicates and changes nothing.
   */
  lemma ReplayAfterFetchAddsNothing(cfg: Settings.Config, w: World, store: Store, wr: Writer, w2: World, wr2: Writer)
    requires !cfg.replay && w.cache.Missing?
    requires MainRun(cfg, w, store, wr).outcome.Ok? && MainRun(cfg, w, store, wr).fetched
    requires w2.cache == MainRun(cfg, w, store, wr).cache
    requires Succeeds(w2.db, |w.fetch.body.summary.data|)
    ensures var first := MainRun(cfg, w, store, wr);
      var second := MainRun(cfg.(replay := true), w2, first.store, wr2);
      && second.store == first.store
      && second.outcome == Ok(Ingested(Counts(|w.fetch.body.summary.data|, 0)))
  {
    FetchedRun(cfg, w, store, wr);
    var s := w.fetch.body.summary;
    var first := MainRun(cfg, w, store, wr);
    var es := first.cache.entries;
    assert es == [Entry(true, w.now, true, w.fetch.body)];
    assert KeptSummaries(es) == [s] by {
      assert KeptSummaries(es[1..]) == [];
    }
    CandidatesOfOne(s);
    WriteIdempotent(store, [s], w.db, w2.db);
    assert ReplayFiles(es) == Ok([s]);
  }

  /**
   A fetched record whose `rating` is JSON `null` reaches the table with NULL
   in the `rating` column, never zero.
   */
  lemma NullRatingStoredAsNull(cfg: Settings.Config, w: World, store: Store, wr: Writer, d: Detail)
    requires !cfg.replay && MainRun(cfg, w, store, wr).outcome.Ok? && MainRun(cfg, w, store, wr).fetched
    requires w.fetch.body.summary.data == [d] && KeyOf(d) !in store
    requires d.rating == AbsentInt
    ensures KeyOf(d) in MainRun(cfg, w, store, wr).store
    ensures MainRun(cfg, w, store, wr).store[KeyOf(d)] == Bind(d)
    ensures Bind(d)[3] == SqlNull && Columns[3].name == "rating"
  {
    FetchedRun(cfg, w, store, wr);
    var s := w.fetch.body.summary;
    CandidatesOfOne(s);
    assert FirstWithKey(Candidates([s]), 0);
    WriteSummariesRows(store, [s], w.db, 0);
    AbsentRatingIsNull(d);
  }
}

=== FILE: records.dfy ===
/**
 The record shapes of a Scout snapshot (summary.go) and the `scout` table they
 are written to: its columns, their SQL types, the NOT NULL constraints and the
 primary key `(object_name, last_run)`.
 */
module Records {
  import opened Base
  import opened Fields

  datatype Signature = Signature(source: string, version: string)

  /** One snapshot of the feed. */
  datatype Summary = Summary(count: string, signature: Signature, data: seq<Detail>)

  /** One object's hazard assessment as of one analysis run. */
  datatype Detail = Detail(
    objectName: string,
    lastRun: MinTime,
    h: QFloat,
    rating: QInt,
    caDist: QFloat,
    moid: QFloat,
    neoScore: QInt,
    neo1kmScore: QInt,
    phaScore: QInt,
    ieoScore: QInt,
    geocentricScore: QInt,
    tisserandScore: QInt,
    unc: QFloat,
    uncP1: QFloat,
    ra: string,
    dec: string,
    elong: string,
    tEphem: MinTime,
    rate: QFloat,
    nObs: QInt,
    arc: QFloat,
    vInf: QFloat,
    rmsN: QFloat,
    vmag: QFloat)

  datatype SqlType = Text | TimestampTz | Real | SmallInt

  datatype Column = Column(name: string, sqlType: SqlType, notNull: bool)

  /** The columns of `scout`, in the order of the CREATE TABLE and of the INSERT. */
  const Columns: seq<Column> := [
    Column("object_name", Text, true),
    Column("last_run", TimestampTz, true),
    Column("h", Real, false),
    Column("rating", SmallInt, false),
    Column("ca_dist", Real, false),
    Column("moid", Real, false),
    Column("neo_score", SmallInt, false),
    Column("neo_1km_score", SmallInt, false),
    Column("pha_score", SmallInt, false),
    Column("ieo_score", SmallInt, false),
    Column("geocentric_score", SmallInt, false),
    Column("tisserand_score", SmallInt, false),
    Column("unc", Real, false),
    Column("uncp1", Real, false),
    Column("ra", Text, false),
    Column("dec", Text, false),
    Column("elong", Text, false),
    Column("tephem", TimestampTz, false),
    Column("rate", Real, false),
    Column("nobs", SmallInt, false),
    Column("arc", Real, false),
    Column("vinf", Real, false),
    Column("rmsn", Real, false),
    Column("vmag", Real, false)
  ]

  /** The primary key: indices into `Columns`. */
  const PrimaryKey: seq<nat> := [0, 1]

  /** The identity of a record in the table. */
  type Key = (string, Instant)

  function KeyOf(d: Detail): Key {
    (d.objectName, d.lastRun.instant)
  }

  /** A field of `Detail` as Go hands it to `stmt.Exec`. */
  datatype FieldValue =
    | TextField(s: string)
    | TimeField(t: MinTime)
    | IntField(q: QInt)
    | FloatField(f: QFloat)

  /** The fields of a record in the order of the INSERT's parameters $1..$24. */
  function FieldList(d: Detail): seq<FieldValue> {
    [ TextField(d.objectName), TimeField(d.lastRun), FloatField(d.h), IntField(d.rating),
      FloatField(d.caDist), FloatField(d.moid), IntField(d.neoScore), IntField(d.neo1kmScore),
      IntField(d.phaScore), IntField(d.ieoScore), IntField(d.geocentricScore), IntField(d.tisserandScore),
      FloatField(d.unc), FloatField(d.uncP1), TextField(d.ra), TextField(d.dec),
      TextField(d.elong), TimeField(d.tEphem), FloatField(d.rate), IntField(d.nObs),
      FloatField(d.arc), FloatField(d.vInf), FloatField(d.rmsN), FloatField(d.vmag) ]
  }

  /** An optional scalar that holds no value. */
  predicate IsAbsent(f: FieldValue) {
    (f.IntField? && f.q.v.None?) || (f.FloatField? && f.f.v.None?)
  }

  /**
   The parameter Go binds for a field: `V()` for the nullable scalars, the
   `time.Time` for a `mintime`, the string itself for text.
   */
  function ToSql(f: FieldValue): SqlValue {
    match f
    case TextField(s) => SqlText(s)
    case TimeField(t) => SqlTime(t.instant)
    case IntField(q) => QIntV(Some(q))
    case FloatField(q) => QFloatV(Some(q))
  }

  /** The parameters of the INSERT for one record. */
  function Bind(d: Detail): seq<SqlValue> {
    var fs := FieldList(d);
    seq(|fs|, i requires 0 <= i < |fs| => ToSql(fs[i]))
  }

  /** The range of PostgreSQL's SMALLINT. */
  const MinSmallInt: int := -32768
  const MaxSmallInt: int := 32767

  predicate FitsSmallInt(q: QInt) {
    q.v.Some? ==> MinSmallInt <= q.v.value <= MaxSmallInt
  }

  /** Every present value of the record's eight SMALLINT fields (the rating, the six scores and the observation count) fits its column. */
  predicate SmallIntsFit(d: Detail) {
    && FitsSmallInt(d.rating) && FitsSmallInt(d.neoScore) && FitsSmallInt(d.neo1kmScore)
    && FitsSmallInt(d.phaScore) && FitsSmallInt(d.ieoScore) && FitsSmallInt(d.geocentricScore)
    && FitsSmallInt(d.tisserandScore) && FitsSmallInt(d.nObs)
  }

  /** A value of the column's kind, or NULL where NULL is allowed. */
  predicate OfKind(v: SqlValue, c: Column) {
    match v
    case SqlNull => !c.notNull
    case SqlInt(_) => c.sqlType == SmallInt
    case SqlFloat(_) => c.sqlType == Real
    case SqlText(_) => c.sqlType == Text
    case SqlTime(_) => c.sqlType == TimestampTz
  }

  /** A value the column accepts: of its kind and, for SMALLINT, within range. */
  predicate Conforms(v: SqlValue, c: Column) {
    OfKind(v, c) && ParameterInRange(v)
  }

  /**
   Every parameter is of its column's kind and respects its NOT NULL
   constraint; all of them are accepted exactly when the record's eight
   SMALLINT fields fit; and the primary-key columns carry the record's key.
   */
  lemma BindConforms(d: Detail)
    ensures |Bind(d)| == |Columns|
    ensures forall i | 0 <= i < |Columns| :: OfKind(Bind(d)[i], Columns[i])
    ensures (forall i | 0 <= i < |Columns| :: Conforms(Bind(d)[i], Columns[i])) <==> SmallIntsFit(d)
    ensures Bind(d)[PrimaryKey[0]] == SqlText(KeyOf(d).0)
    ensures Bind(d)[PrimaryKey[1]] == SqlTime(KeyOf(d).1)
  {
    var row := Bind(d);
    var fs := FieldList(d);
    forall i | 0 <= i < |Columns|
      ensures OfKind(row[i], Columns[i])
    {
      assert row[i] == ToSql(fs[i]);
      if i < 12 {
        ConformsLow(d, i);
      } else {
        ConformsHigh(d, i);
      }
    }
    BindInRange(d);
  }

  lemma ConformsLow(d: Detail, i: int)
    requires 0 <= i < 12
    ensures OfKind(ToSql(FieldList(d)[i]), Columns[i])
  {
  }

  lemma ConformsHigh(d: Detail, i: int)
    requires 12 <= i < 24
    ensures OfKind(ToSql(FieldList(d)[i]), Columns[i])
  {
  }

  /** The positions of the eight SMALLINT fields among the INSERT's parameters. */
  lemma ScorePositions(d: Detail)
    ensures FieldList(d)[3] == IntField(d.rating) && FieldList(d)[6] == IntField(d.neoScore)
    ensures FieldList(d)[7] == IntField(d.neo1kmScore) && FieldList(d)[8] == IntField(d.phaScore)
    ensures FieldList(d)[9] == IntField(d.ieoScore) && FieldList(d)[10] == IntField(d.geocentricScore)
    ensures FieldList(d)[11] == IntField(d.tisserandScore) && FieldList(d)[19] == IntField(d.nObs)
  {
  }

  lemma OutOfRangeAt(d: Detail, j: int)
    requires 0 <= j < 24 && FieldList(d)[j].IntField? && !FitsSmallInt(FieldList(d)[j].q)
    ensures j < |Bind(d)| && !ParameterInRange(Bind(d)[j])
  {
    assert Bind(d)[j] == ToSql(FieldList(d)[j]);
  }

  /** The integer field at a position of the INSERT is one of the eight SMALLINT fields. */
  lemma IntFieldIsScore(d: Detail, i: int)
    requires 0 <= i < 24 && FieldList(d)[i].IntField?
    ensures SmallIntsFit(d) ==> FitsSmallInt(FieldList(d)[i].q)
  {
    if i < 12 {
      IntFieldIsScoreLow(d, i);
    } else {
      IntFieldIsScoreHigh(d, i);
    }
  }

  lemma IntFieldIsScoreLow(d: Detail, i: int)
    requires 0 <= i < 12 && FieldList(d)[i].IntField?
    ensures SmallIntsFit(d) ==> FitsSmallInt(FieldList(d)[i].q)
  {
  }

  lemma IntFieldIsScoreHigh(d: Detail, i: int)
    requires 12 <= i < 24 && FieldList(d)[i].IntField?
    ensures SmallIntsFit(d) ==> FitsSmallInt(FieldList(d)[i].q)
  {
  }

  predicate ParameterInRange(v: SqlValue) {
    v.SqlInt? ==> MinSmallInt <= v.i <= MaxSmallInt
  }

  lemma FitThenInRange(d: Detail)
    requires SmallIntsFit(d)
    ensures forall i | 0 <= i < |Bind(d)| :: ParameterInRange(Bind(d)[i])
  {
    var fs := FieldList(d);
    forall i | 0 <= i < |Bind(d)|
      ensures ParameterInRange(Bind(d)[i])
    {
      assert Bind(d)[i] == ToSql(fs[i]);
      if fs[i].IntField? {
        IntFieldIsScore(d, i);
      }
    }
  }

  lemma UnfitOutOfRange(d: Detail)
    requires !SmallIntsFit(d)
    ensures exists i | 0 <= i < |Bind(d)| :: !ParameterInRange(Bind(d)[i])
  {
    ScorePositions(d);
    var j :=
      if !FitsSmallInt(d.rating) then 3 else if !FitsSmallInt(d.neoScore) then 6
      else if !FitsSmallInt(d.neo1kmScore) then 7 else if !FitsSmallInt(d.phaScore) then 8
      else if !FitsSmallInt(d.ieoScore) then 9 else if !FitsSmallInt(d.geocentricScore) then 10
      else if !FitsSmallInt(d.tisserandScore) then 11 else 19;
    OutOfRangeAt(d, j);
  }

  lemma BindInRange(d: Detail)
    ensures (forall i | 0 <= i < |Bind(d)| :: ParameterInRange(Bind(d)[i])) <==> SmallIntsFit(d)
  {
    if SmallIntsFit(d) {
      FitThenInRange(d);
    } else {
      UnfitOutOfRange(d);
    }
  }

  /** Both primary-key columns are declared NOT NULL. */
  lemma PrimaryKeyNotNull()
    ensures forall k | 0 <= k < |PrimaryKey| :: PrimaryKey[k] < |Columns| && Columns[PrimaryKey[k]].notNull
    ensures Columns[PrimaryKey[0]].name == "object_name" && Columns[PrimaryKey[1]].name == "last_run"
  {
  }

  /**
   A parameter is NULL exactly when its field is an absent optional scalar;
   text and timestamps are never NULL, and absence is never bound as zero.
   */
  lemma BindNullIffAbsent(d: Detail)
    ensures forall i | 0 <= i < |FieldList(d)| :: Bind(d)[i] == SqlNull <==> IsAbsent(FieldList(d)[i])
  {
  }

  /** An absent rating binds as NULL in the `rating` column, never as zero. */
  lemma AbsentRatingIsNull(d: Detail)
    requires d.rating == AbsentInt
    ensures |Bind(d)| == |Columns| && Bind(d)[3] == SqlNull
    ensures Columns[3].name == "rating"
  {
  }

  /**
   An absent ephemeris time is bound as Go's zero time, not as NULL: the
   table cannot tell it from an ephemeris at 0001-01-01 00:00 UTC.
   */
  lemma AbsentEphemerisIsZeroTime(d: Detail)
    requires d.tEphem == ZeroTime
    ensures Bind(d)[17] == SqlTime(ZeroInstant)
    ensures Columns[17].name == "tephem"
  {
  }
}

=== FILE: settings.dfy ===
/**
 The command-line settings of the scraper (main.go) and the libpq keyword/value
 connection string `buildConnectOptions` assembles from them.
 */
module Settings {

  /** The flags after parsing, each already defaulted or taken from its environment variable. */
  datatype Config = Config(
    cacheDir: string,
    replay: bool,
    dbname: string,
    user: string,
    password: string,
    host: string,
    port: string,
    connectOpts: string)

  /** The flag defaults; the password has none and must be given. */
  function Defaults(cacheDir: string, password: string): Config {
    Config(cacheDir, false, "tsdb", "tsdbadmin", password, "127.0.0.1", "30000", "sslmode=require")
  }

  // ---------------------------------------------------------------- join and split

  /** `strings.Join(items, " ")`. */
  function Join(items: seq<string>): (r: string) {
    if |items| == 0 then ""
    else if |items| == 1 then items[0]
    else items[0] + " " + Join(items[1..])
  }

  /** The split of `[c] + t`, given the split `r` of `t`: a space starts a new item, any other character extends the first. */
  function Prepend(c: char, r: seq<string>): (p: seq<string>)
    requires |r| >= 1
    ensures |p| >= 1
  {
    if c == ' ' then [""] + r else [[c] + r[0]] + r[1..]
  }

  /** `strings.Split(s, " ")`: the text between single spaces, so "" splits to [""]. */
  function Split(s: string): (r: seq<string>)
    ensures |r| >= 1
  {
    if |s| == 0 then [""] else Prepend(s[0], Split(s[1..]))
  }

  lemma {:induction false} SplitNoSpace(a: string)
    requires ' ' !in a
    ensures Split(a) == [a]
  {
    if |a| > 0 {
      assert a[0] in a;
      assert forall c | c in a[1..] :: c in a;
      SplitNoSpace(a[1..]);
      assert [a[0]] + a[1..] == a;
    }
  }

  lemma SplitCons(c: char, t: string)
    ensures Split([c] + t) == Prepend(c, Split(t))
  {
    assert ([c] + t)[1..] == t;
  }

  lemma PrependAppend(c: char, x: seq<string>, y: seq<string>)
    requires |x| >= 1
    ensures Prepend(c, x + y) == Prepend(c, x) + y
  {
    if c != ' ' {
      assert (x + y)[0] == x[0];
      assert (x + y)[1..] == x[1..] + y;
    }
  }

  /** Splitting at a space splits the two sides independently. */
  lemma {:induction false} SplitAppend(a: string, b: string)
    ensures Split(a + " " + b) == Split(a) + Split(b)
  {
    if |a| == 0 {
      assert a + " " + b == [' '] + b;
      SplitCons(' ', b);
    } else {
      var c, t := a[0], a[1..];
      assert a == [c] + t;
      assert a + " " + b == [c] + (t + " " + b);
      SplitAppend(t, b);
      SplitCons(c, t + " " + b);
      SplitCons(c, t);
      PrependAppend(c, Split(t), Split(b));
    }
  }

  /** Joining items that hold no space and splitting again gives the items back. */
  lemma {:induction false} SplitJoin(items: seq<string>)
    requires |items| > 0
    requires forall i | 0 <= i < |items| :: ' ' !in items[i]
    ensures Split(Join(items)) == items
  {
    if |items| == 1 {
      SplitNoSpace(items[0]);
    } else {
      SplitNoSpace(items[0]);
      SplitJoin(items[1..]);
      SplitAppend(items[0], Join(items[1..]));
      assert items == [items[0]] + items[1..];
    }
  }

  lemma {:induction false} JoinSnoc(items: seq<string>, x: string)
    requires |items| > 0
    ensures Join(items + [x]) == Join(items) + " " + x
  {
    if |items| == 1 {
      assert items + [x] == [items[0], x];
    } else {
      assert (items + [x])[1..] == items[1..] + [x];
      JoinSnoc(items[1..], x);
    }
  }

  /** A join is empty only when its first item is, and then only when it is the only one. */
  lemma {:induction false} JoinEmpty(items: seq<string>)
    requires forall i | 0 <= i < |items| :: items[i] != ""
    ensures Join(items) == "" <==> |items| == 0
  {
    if |items| > 0 {
      assert |Join(items)| >= |items[0]| > 0 by {
        if |items| > 1 {
          assert Join(items) == items[0] + " " + Join(items[1..]);
        }
      }
    }
  }

  // ---------------------------------------------------------------- connection options

  /** One `keyword=value` item, or none when the setting is empty. */
  function Setting(keyword: string, value: string): (r: seq<string>)
    ensures |r| <= 1
    ensures r == [] <==> value == ""
    ensures forall i | 0 <= i < |r| :: r[i] == keyword + value
  {
    if value == "" then [] else [keyword + value]
  }

  /** The keyword items of `buildConnectOptions`, in its fixed order, skipping empty settings. */
  function KeywordItems(cfg: Config): seq<string> {
    Setting("host=", cfg.host) + Setting("port=", cfg.port) + Setting("user=", cfg.user)
      + Setting("password=", cfg.password) + Setting("dbname=", cfg.dbname)
  }

  /** All the items: the keyword items, then the extra options verbatim when there are any. */
  function Items(cfg: Config): seq<string> {
    KeywordItems(cfg) + (if cfg.connectOpts == "" then [] else [cfg.connectOpts])
  }

  /** `buildConnectOptions`: the items joined by single spaces. */
  function ConnectOptions(cfg: Config): (r: string)
    ensures r == "" <==> cfg.host == "" && cfg.port == "" && cfg.user == "" && cfg.password == ""
                          && cfg.dbname == "" && cfg.connectOpts == ""
  {
    var items := Items(cfg);
    assert forall i | 0 <= i < |items| :: items[i] != "" by {
      forall i | 0 <= i < |items| ensures items[i] != "" {
        assert items[i] in items;
      }
    }
    JoinEmpty(items);
    Join(items)
  }

  /** The settings that hold no space, whose items split back out exactly. */
  predicate SpaceFree(cfg: Config) {
    ' ' !in cfg.host && ' ' !in cfg.port && ' ' !in cfg.user && ' ' !in cfg.password && ' ' !in cfg.dbname
  }

  lemma SettingSpaceFree(keyword: string, value: string)
    requires ' ' !in keyword && ' ' !in value
    ensures forall i | 0 <= i < |Setting(keyword, value)| :: ' ' !in Setting(keyword, value)[i]
  {
    forall i | 0 <= i < |Setting(keyword, value)|
      ensures ' ' !in Setting(keyword, value)[i]
    {
      var item := keyword + value;
      forall c | c in item ensures c != ' ' {
        var j :| 0 <= j < |item| && item[j] == c;
        if j < |keyword| {
          assert keyword[j] == c;
        } else {
          assert value[j - |keyword|] == c;
        }
      }
    }
  }

  lemma SettingsSpaceFree(cfg: Config)
    requires SpaceFree(cfg)
    ensures forall i | 0 <= i < |KeywordItems(cfg)| :: ' ' !in KeywordItems(cfg)[i]
  {
    assert ' ' !in "host=" && ' ' !in "port=" && ' ' !in "user=" && ' ' !in "password=" && ' ' !in "dbname=";
    SettingSpaceFree("host=", cfg.host);
    SettingSpaceFree("port=", cfg.port);
    SettingSpaceFree("user=", cfg.user);
    SettingSpaceFree("password=", cfg.password);
    SettingSpaceFree("dbname=", cfg.dbname);
  }

  /**
   Reading the option string back: splitting it at single spaces, the inverse
   of the join, finds the keyword items in order, followed by the extra
   options' own words.
   */
  lemma ConnectOptionsSplit(cfg: Config)
    requires SpaceFree(cfg)
    ensures Split(ConnectOptions(cfg)) ==
      if KeywordItems(cfg) == [] then Split(cfg.connectOpts)
      else if cfg.connectOpts == "" then KeywordItems(cfg)
      else KeywordItems(cfg) + Split(cfg.connectOpts)
  {
    var ks := KeywordItems(cfg);
    SettingsSpaceFree(cfg);
    if ks == [] {
      if cfg.connectOpts != "" {
        assert Items(cfg) == [cfg.connectOpts];
      }
    } else if cfg.connectOpts == "" {
      assert Items(cfg) == ks;
      SplitJoin(ks);
    } else {
      JoinSnoc(ks, cfg.connectOpts);
      SplitJoin(ks);
      SplitAppend(Join(ks), cfg.connectOpts);
    }
  }

  lemma DefaultItems(cacheDir: string, password: string)
    requires password != ""
    ensures Items(Defaults(cacheDir, password)) ==
      ["host=127.0.0.1", "port=30000", "user=tsdbadmin", "password=" + password, "dbname=tsdb", "sslmode=require"]
  {
    assert Setting("host=", "127.0.0.1") == ["host=127.0.0.1"] by {
      assert |"127.0.0.1"| > 0;
      assert "host=" + "127.0.0.1" == "host=127.0.0.1";
    }
    assert Setting("port=", "30000") == ["port=30000"] by {
      assert |"30000"| > 0;
      assert "port=" + "30000" == "port=30000";
    }
    assert Setting("user=", "tsdbadmin") == ["user=tsdbadmin"] by {
      assert |"tsdbadmin"| > 0;
      assert "user=" + "tsdbadmin" == "user=tsdbadmin";
    }
    assert Setting("password=", password) == ["password=" + password];
    assert Setting("dbname=", "tsdb") == ["dbname=tsdb"] by {
      assert |"tsdb"| > 0;
      assert "dbname=" + "tsdb" == "dbname=tsdb";
    }
  }

  lemma JoinCons(x: string, rest: seq<string>)
    requires |rest| > 0
    ensures Join([x] + rest) == x + " " + Join(rest)
  {
    assert ([x] + rest)[1..] == rest;
  }

  lemma JoinSix(a: string, b: string, c: string, d: string, e: string, f: string)
    ensures Join([a, b, c, d, e, f]) == a + " " + b + " " + c + " " + d + " " + e + " " + f
  {
    JoinCons(e, [f]);
    assert [e] + [f] == [e, f];
    JoinCons(d, [e, f]);
    assert [d] + [e, f] == [d, e, f];
    JoinCons(c, [d, e, f]);
    assert [c] + [d, e, f] == [c, d, e, f];
    JoinCons(b, [c, d, e, f]);
    assert [b] + [c, d, e, f] == [b, c, d, e, f];
    JoinCons(a, [b, c, d, e, f]);
    assert [a] + [b, c, d, e, f] == [a, b, c, d, e, f];
  }

  /** With the defaults, the string names the local server, the admin user and TLS. */
  lemma DefaultConnectOptions(cacheDir: string, password: string)
    requires password != ""
    ensures ConnectOptions(Defaults(cacheDir, password)) ==
      "host=127.0.0.1 port=30000 user=tsdbadmin password=" + password + " dbname=tsdb sslmode=require"
  {
    DefaultItems(cacheDir, password);
    JoinSix("host=127.0.0.1", "port=30000", "user=tsdbadmin", "password=" + password, "dbname=tsdb", "sslmode=require");
    DefaultText(password);
  }

  lemma DefaultText(password: string)
    ensures "host=127.0.0.1" + " " + "port=30000" + " " + "user=tsdbadmin" + " " + ("password=" + password)
              + " " + "dbname=tsdb" + " " + "sslmode=require"
         == "host=127.0.0.1 port=30000 user=tsdbadmin password=" + password + " dbname=tsdb sslmode=require"
  {
    var head := "host=127.0.0.1" + " " + "port=30000" + " " + "user=tsdbadmin" + " ";
    Regroup(head, "password=", password, "dbname=tsdb", "sslmode=require");
    DefaultHead();
    DefaultTail();
  }

  lemma DefaultHead()
    ensures "host=127.0.0.1" + " " + "port=30000" + " " + "user=tsdbadmin" + " " + "password="
         == "host=127.0.0.1 port=30000 user=tsdbadmin password="
  {
  }

  lemma DefaultTail()
    ensures " " + "dbname=tsdb" + " " + "sslmode=require" == " dbname=tsdb sslmode=require"
  {
  }

  lemma Regroup(head: string, key: string, value: string, d: string, o: string)
    ensures head + (key + value) + " " + d + " " + o == (head + key) + value + (" " + d + " " + o)
  {
  }
}

=== FILE: timestamp.dfy ===
/**
 Minute-precision UTC timestamps in the layout "2006-01-02 15:04", and their
 position on Go's proleptic Gregorian time line.
 */
module Timestamp {
  import opened Base
  import Decimal

  /** The calendar fields the layout carries; seconds are always zero. */
  datatype Civil = Civil(year: int, month: int, day: int, hour: int, minute: int)

  predicate IsLeap(y: int) {
    y % 4 == 0 && (y % 100 != 0 || y % 400 == 0)
  }

  function YearLength(y: int): int {
    if IsLeap(y) then 366 else 365
  }

  function DaysIn(m: int, y: int): int {
    if m == 2 then (if IsLeap(y) then 29 else 28)
    else if m == 4 || m == 6 || m == 9 || m == 11 then 30
    else 31
  }

  /** Fields that name a real minute with a four-digit year. */
  predicate Valid(c: Civil) {
    && 0 <= c.year <= 9999
    && 1 <= c.month <= 12
    && 1 <= c.day <= DaysIn(c.month, c.year)
    && 0 <= c.hour < 24
    && 0 <= c.minute < 60
  }

  /** Days from 1 January of year `y` to the first of month `m`. */
  function DaysBeforeMonth(m: int, y: int): int
    requires 1 <= m <= 13
  {
    var common :=
      if m == 1 then 0 else if m == 2 then 31 else if m == 3 then 59
      else if m == 4 then 90 else if m == 5 then 120 else if m == 6 then 151
      else if m == 7 then 181 else if m == 8 then 212 else if m == 9 then 243
      else if m == 10 then 273 else if m == 11 then 304 else if m == 12 then 334
      else 365;
    if m > 2 && IsLeap(y) then common + 1 else common
  }

  /** Days from 0001-01-01 to 1 January of year `y` (negative for year 0). */
  function DaysBeforeYear(y: int): int {
    var p := y - 1;
    365 * p + p / 4 - p / 100 + p / 400
  }

  function DayNumber(c: Civil): int
    requires 1 <= c.month <= 12
  {
    DaysBeforeYear(c.year) + DaysBeforeMonth(c.month, c.year) + c.day - 1
  }

  /** Minutes from Go's zero time to the minute the fields name. */
  function MinuteNumber(c: Civil): int
    requires Valid(c)
  {
    (DayNumber(c) * 24 + c.hour) * 60 + c.minute
  }

  /** The UTC instant the fields name, as `time.Date` computes it. */
  function ToInstant(c: Civil): (t: Instant)
    requires Valid(c)
    ensures t % NanosPerMinute == 0
  {
    MinuteNumber(c) * 60_000_000_000
  }

  function DigitAt(s: Bytes, i: int): int
    requires 0 <= i < |s| && Decimal.IsDigit(s[i])
  {
    Decimal.DigitValue(s[i])
  }

  predicate DigitsAt(s: Bytes, lo: int, hi: int)
    requires 0 <= lo <= hi <= |s|
  {
    forall i | lo <= i < hi :: Decimal.IsDigit(s[i])
  }

  /** The byte shape of the layout: digits with `-`, ` ` and `:` in fixed places. */
  predicate LayoutShape(s: Bytes) {
    && |s| == 16
    && DigitsAt(s, 0, 4) && s[4] == Minus
    && DigitsAt(s, 5, 7) && s[7] == Minus
    && DigitsAt(s, 8, 10) && s[10] == Space
    && DigitsAt(s, 11, 13) && s[13] == Colon
    && DigitsAt(s, 14, 16)
  }

  function FieldsOf(s: Bytes): Civil
    requires LayoutShape(s)
  {
    Civil(
      DigitAt(s, 0) * 1000 + DigitAt(s, 1) * 100 + DigitAt(s, 2) * 10 + DigitAt(s, 3),
      DigitAt(s, 5) * 10 + DigitAt(s, 6),
      DigitAt(s, 8) * 10 + DigitAt(s, 9),
      DigitAt(s, 11) * 10 + DigitAt(s, 12),
      DigitAt(s, 14) * 10 + DigitAt(s, 15))
  }

  /**
   Reads the zero-padded layout "2006-01-02 15:04"; fails on any other shape
   and on fields out of range (month 13, 30 February, hour 24, minute 60).
   */
  function ParseLayout(s: Bytes): (r: Option<Civil>)
    ensures r.Some? ==> Valid(r.value)
  {
    if LayoutShape(s) && Valid(FieldsOf(s)) then Some(FieldsOf(s)) else None
  }

  function DigitByte(n: int): byte
    requires 0 <= n < 10
  {
    (Zero as int + n) as byte
  }

  function Pad2(n: int): Bytes
    requires 0 <= n < 100
  {
    [DigitByte(n / 10), DigitByte(n % 10)]
  }

  /** The text of valid fields in the layout "2006-01-02 15:04". */
  function Format(c: Civil): (s: Bytes)
    requires Valid(c)
    ensures LayoutShape(s)
  {
    Pad2(c.year / 100) + Pad2(c.year % 100) + [Minus] + Pad2(c.month) + [Minus] + Pad2(c.day)
      + [Space] + Pad2(c.hour) + [Colon] + Pad2(c.minute)
  }

  /** Formatting then parsing gives the fields back. */
  lemma ParseFormat(c: Civil)
    requires Valid(c)
    ensures ParseLayout(Format(c)) == Some(c)
  {
    var s := Format(c);
    assert FieldsOf(s) == c;
  }

  lemma Pad2Digits(s: Bytes, i: int)
    requires 0 <= i < i + 1 < |s| && Decimal.IsDigit(s[i]) && Decimal.IsDigit(s[i + 1])
    ensures Pad2(DigitAt(s, i) * 10 + DigitAt(s, i + 1)) == s[i..i + 2]
  {
  }

  lemma YearDigits(s: Bytes)
    requires LayoutShape(s)
    ensures Pad2(FieldsOf(s).year / 100) + Pad2(FieldsOf(s).year % 100) == s[0..4]
  {
    var y := FieldsOf(s).year;
    assert y / 100 == DigitAt(s, 0) * 10 + DigitAt(s, 1);
    assert y % 100 == DigitAt(s, 2) * 10 + DigitAt(s, 3);
    Pad2Digits(s, 0);
    Pad2Digits(s, 2);
  }

  lemma LayoutPieces(s: Bytes)
    requires |s| == 16
    ensures s == s[0..4] + [s[4]] + s[5..7] + [s[7]] + s[8..10] + [s[10]] + s[11..13] + [s[13]] + s[14..16]
  {
  }

  /** A successful parse read a canonical text: parsing then formatting gives the text back. */
  lemma FormatParse(s: Bytes)
    requires ParseLayout(s).Some?
    ensures Format(ParseLayout(s).value) == s
  {
    YearDigits(s);
    Pad2Digits(s, 5);
    Pad2Digits(s, 8);
    Pad2Digits(s, 11);
    Pad2Digits(s, 14);
    LayoutPieces(s);
  }

  lemma QuotientStep4(y: int)
    ensures y / 4 - (y - 1) / 4 == if y % 4 == 0 then 1 else 0
  {
  }

  lemma QuotientStep100(y: int)
    ensures y / 100 - (y - 1) / 100 == if y % 100 == 0 then 1 else 0
  {
  }

  lemma QuotientStep400(y: int)
    ensures y / 400 - (y - 1) / 400 == if y % 400 == 0 then 1 else 0
  {
  }

  lemma DaysBeforeYearStep(y: int)
    ensures DaysBeforeYear(y + 1) == DaysBeforeYear(y) + YearLength(y)
  {
    QuotientStep4(y);
    QuotientStep100(y);
    QuotientStep400(y);
  }

  lemma {:induction false} DaysBeforeYearIncreasing(a: int, b: int)
    requires a < b
    ensures DaysBeforeYear(a + 1) <= DaysBeforeYear(b)
    decreases b - a
  {
    if a + 1 < b {
      DaysBeforeYearIncreasing(a, b - 1);
      DaysBeforeYearStep(b - 1);
    }
  }

  /** A valid date lies inside its own year. */
  lemma DayNumberInYear(c: Civil)
    requires Valid(c)
    ensures DaysBeforeYear(c.year) <= DayNumber(c) < DaysBeforeYear(c.year + 1)
  {
    DaysBeforeYearStep(c.year);
  }

  lemma SameYearSameDate(a: Civil, b: Civil)
    requires Valid(a) && Valid(b) && a.year == b.year
    requires DayNumber(a) == DayNumber(b)
    ensures a.month == b.month && a.day == b.day
  {
  }

  lemma DayNumberInjective(a: Civil, b: Civil)
    requires Valid(a) && Valid(b)
    requires DayNumber(a) == DayNumber(b)
    ensures a.year == b.year && a.month == b.month && a.day == b.day
  {
    DayNumberInYear(a);
    DayNumberInYear(b);
    if a.year < b.year {
      DaysBeforeYearIncreasing(a.year, b.year);
    } else if b.year < a.year {
      DaysBeforeYearIncreasing(b.year, a.year);
    }
    SameYearSameDate(a, b);
  }

  /** Valid fields name the same instant exactly when they are the same fields. */
  lemma ToInstantInjective(a: Civil, b: Civil)
    requires Valid(a) && Valid(b)
    ensures ToInstant(a) == ToInstant(b) <==> a == b
  {
    if ToInstant(a) == ToInstant(b) {
      assert MinuteNumber(a) == MinuteNumber(b);
      assert DayNumber(a) * 24 + a.hour == DayNumber(b) * 24 + b.hour;
      assert DayNumber(a) == DayNumber(b);
      DayNumberInjective(a, b);
    }
  }

  /** 0001-01-01 00:00 is minute zero of the time line. */
  lemma FirstMinute(c: Civil)
    requires c.year == 1 && c.month == 1 && c.day == 1 && c.hour == 0 && c.minute == 0
    ensures Valid(c) && MinuteNumber(c) == 0
  {
  }

  /** An instant is Go's zero time exactly when it names minute zero. */
  lemma ZeroInstantIsMinuteZero(c: Civil)
    requires Valid(c)
    ensures ToInstant(c) == ZeroInstant <==> MinuteNumber(c) == 0
  {
  }

  lemma ZeroTimeFields()
    ensures ToInstant(Civil(1, 1, 1, 0, 0)) == ZeroInstant
  {
    var z := Civil(1, 1, 1, 0, 0);
    FirstMinute(z);
    ZeroInstantIsMinuteZero(z);
  }

  /** The only text that denotes Go's zero time is "0001-01-01 00:00". */
  lemma ZeroInstantFields(c: Civil)
    requires Valid(c)
    ensures ToInstant(c) == ZeroInstant <==> c == Civil(1, 1, 1, 0, 0)
  {
    ZeroTimeFields();
    ToInstantInjective(c, Civil(1, 1, 1, 0, 0));
  }

  /**
   The Unix epoch lies 62135596800 seconds after Go's zero time, the offset
   Go's `time` package calls `unixToInternal`.
   */
  lemma UnixEpochInstant()
    ensures ToInstant(Civil(1970, 1, 1, 0, 0)) == 62_135_596_800 * NanosPerSecond
  {
  }
}
